=== FILE: README.md ===
# Global Secure Access version sensor, modelled in Dafny

This is a model of the Home Assistant integration that reports the latest Microsoft Global Secure Access client versions. It has three parts.

- **The release-info scraper.** `_scrape_release_info` works on a parsed page. It picks the search area, which is `main#main` or else the whole document. It then finds the first version heading: every `h1` before any `h2`, and so on down to `h4`. The version comes from the pattern `(?i)Version[:\s]*([\d\.]+)`. After that, a walk over the heading's next siblings collects the release date and the changelog. If no heading matches, the pattern is searched in the whole area's text instead.
- **One refresh cycle of the coordinator.** `_async_update_data` is modelled as a pure step over the coordinator's state. That state is `last_success`, whether the "scraping_failure" repair issue is raised, and the data. On success it publishes the two-platform result. On failure it raises the issue once more than 24 hours have passed since the last success.
- **The sensor entity.** `state`, `extra_state_attributes`, `available`, the unique id and the icon, each as a pure function of the coordinator's data.

Files, one module each:

| file | module | what it holds |
|---|---|---|
| wrappers.dfy | Wrappers | `Option` |
| string_ops.dfy | StringOps | Python's `strip`, `strip(chars)`, `join`, `replace(pat, "")`, `in`, ASCII lower-casing |
| version_pattern.dfy | VersionPattern | the version pattern as a declarative match predicate and as a leftmost scan |
| document.dfy | Document | the parsed tree, `descendants`/`next_siblings` as a pre-order walk, `get_text`, `find("main", id="main")` |
| extractor.dfy | Extractor | `_scrape_release_info`: heading search, sibling walk, fallback |
| coordinator.dfy | Coordinator | `_async_update_data` as a state step, and runs of steps |
| sensor.dfy | Sensor | the sensor's properties |
| examples.dfy | Examples | the pages of the coordinator tests, a dated release, the 24-hour threshold |

How the model is built:

- **The regular expression.** The classes `[:\s]` and `[\d.]` share no character. So at each position the pattern matches in at most one way. `VersionPattern.IsMatch` states what a match is. `VersionPattern.Search` is the scan that computes one. The lemmas show that the scan returns the leftmost match and that this match is unique.
- **The sibling walk.** `Extractor.CollectSiblings` follows the loop at coordinator.py:127-142 step by step. It is proved equal to a reference definition built from `Section`, the siblings before the first `h1`/`h2`. The release date is the first non-empty date candidate. An empty date is falsy in Python, so a later paragraph may replace it. The changelog is the newline join of the parts, stripped, and is absent when there are no parts.
- **Heading order.** The code scans all `h1` first, then all `h2`, and so on (coordinator.py:112-113). So `Extractor.IsFirstHeading` says an `h1` anywhere beats an `h2` earlier in the page.
- **The fetches.** The code fetches the Windows page and then the macOS page, one after the other (coordinator.py:43-44). One cycle of the model takes both results as its input.

## Model

Source paths are relative to the repository root.

| member | source | states |
|---|---|---|
| StringOps.Strip | custom_components/global_secure_access_version/coordinator.py:115 | `strip()` leaves no white space at either end, never lengthens, and gives "" exactly when the text is blank |
| StringOps.StripKeepsTrimmedText | custom_components/global_secure_access_version/coordinator.py:115 | a text with no white space at its ends is left unchanged by `strip()` |
| StringOps.StripCharsIdempotent | custom_components/global_secure_access_version/coordinator.py:135-137 | `strip(" .")` applied twice is the same as once |
| StringOps.StripChars | custom_components/global_secure_access_version/coordinator.py:137 | `strip(" .")` removes only characters of the set, from the ends only: the result is a slice of the text whose ends are not in the set, and everything cut off is in the set |
| StringOps.RemoveAll | custom_components/global_secure_access_version/coordinator.py:135-136 | `replace(pat, "")` never lengthens the text; `StringOps.RemoveAllWithoutOccurrence` and `StringOps.RemoveAllSkipsToOccurrence` state what it removes |
| StringOps.RemoveAllWithoutOccurrence | custom_components/global_secure_access_version/coordinator.py:135-136 | a text in which the phrase does not occur is left unchanged by `replace(phrase, "")` |
| StringOps.RemoveAllSkipsToOccurrence | custom_components/global_secure_access_version/coordinator.py:135-136 | the first occurrence of the phrase is removed and the text before it kept: `a + phrase + b`, with no occurrence starting inside `a`, becomes `a` followed by the removal from `b`, whatever `b` holds |
| StringOps.RemoveAllUpTo | custom_components/global_secure_access_version/coordinator.py:135-136 | the same on one text: with the first occurrence at `k`, the text before `k` is kept and the removal goes on after the occurrence |
| StringOps.Contains | custom_components/global_secure_access_version/coordinator.py:134 | no contract of its own: `sub in s` holds when `sub` occurs at some index; `Extractor.NoDateWithoutMarker` states what the marker test decides |
| StringOps.JoinEndsWithLast | custom_components/global_secure_access_version/coordinator.py:147 | a joined text ends with the last part joined |
| StringOps.Join | custom_components/global_secure_access_version/coordinator.py:147 | no parts join to ""; otherwise the joined text starts with the first part and is as long as the parts plus one separator between each two; `StringOps.JoinAppend` places the separators |
| StringOps.JoinAppend | custom_components/global_secure_access_version/coordinator.py:147 | joining two non-empty lists gives the two joins with one separator between them, so `sep` stands between every two consecutive parts, in order |
| StringOps.LowerFoldsCase | custom_components/global_secure_access_version/coordinator.py:110 | the case folding of `(?i)` leaves no upper-case ASCII letter, changes exactly those letters, and maps letters to letters |
| VersionPattern.RunEndsAt | custom_components/global_secure_access_version/coordinator.py:110 | a maximal run of a class ends where the greedy run length says |
| VersionPattern.MatchIsMaximalRuns | custom_components/global_secure_access_version/coordinator.py:110 | in any match, the separators and the captured group are the maximal runs after the keyword |
| VersionPattern.MatchAt | custom_components/global_secure_access_version/coordinator.py:110 | the pattern anchored at `j`: anything returned is a match starting at `j` |
| VersionPattern.MatchAtFindsEveryMatch | custom_components/global_secure_access_version/coordinator.py:110 | every match starting at `j` is the one the anchored scan returns |
| VersionPattern.MatchIsDeterministic | custom_components/global_secure_access_version/coordinator.py:110 | two matches at the same start are equal: the pattern has no alternatives |
| VersionPattern.SearchFrom | custom_components/global_secure_access_version/coordinator.py:116 | the scan from `i` returns the match with the smallest start at or after `i`, or none exists there |
| VersionPattern.FindMatch | custom_components/global_secure_access_version/coordinator.py:116 | `search` finds a match exactly when one exists, and it is the leftmost |
| VersionPattern.Search | custom_components/global_secure_access_version/coordinator.py:116-118 | `group(1)` is present exactly when the pattern matches, is non-empty digits and dots, and is the group of the leftmost match |
| VersionPattern.LeftmostMatchIsReported | custom_components/global_secure_access_version/coordinator.py:116-118 | whichever match starts first is the one whose group is reported |
| Document.StringsFollowDescendants | custom_components/global_secure_access_version/coordinator.py:115 | `get_text` reads an element's text nodes in the order its descendants are walked |
| Document.Walk | custom_components/global_secure_access_version/coordinator.py:127 | as many visits as the forest has nodes; `Document.WalkVisitsEachNode` states which visits |
| Document.WalkVisitsEachNode | custom_components/global_secure_access_version/coordinator.py:127 | every node of the forest is visited with the siblings after it as its `next_siblings`, and so is everything below it |
| Document.Descendants | custom_components/global_secure_access_version/coordinator.py:113 | one visit per node below `n`, so `Size(n)` less one visits: `node.descendants`; `Document.ChildrenAreDescendants` states what it holds |
| Document.ChildrenAreDescendants | custom_components/global_secure_access_version/coordinator.py:113 | `descendants` holds each child with its next siblings, and everything below each child |
| Document.StrippedStringsAreStripped | custom_components/global_secure_access_version/coordinator.py:115 | every text `get_text(strip=True)` keeps is non-empty and stripped |
| Document.StrippedStringsEmpty | custom_components/global_secure_access_version/coordinator.py:115 | nothing is kept exactly when every text node is blank |
| Document.StrippedJoin | custom_components/global_secure_access_version/coordinator.py:141 | joining stripped parts with any separator gives a stripped text, empty only when there are no parts |
| Document.StrippedStringsAppend | custom_components/global_secure_access_version/coordinator.py:115 | the stripped strings of two runs of text nodes are those of the first run followed by those of the second: each text node is stripped on its own and order is kept |
| Document.GetText | custom_components/global_secure_access_version/coordinator.py:115 | stripped text is empty exactly when all text nodes are blank, and otherwise has no white space at its ends |
| Document.StrippedTextOfSingleText | custom_components/global_secure_access_version/coordinator.py:115 | an element holding one stripped text node has that text as its stripped text |
| Document.FirstIndex | custom_components/global_secure_access_version/coordinator.py:113-117 | the first position satisfying the test, with none before it, or none at all |
| Document.SearchArea | custom_components/global_secure_access_version/coordinator.py:97-102 | the first `main` with id "main" in document order when there is one, otherwise the whole document; never fails |
| Extractor.HeadingVersion | custom_components/global_secure_access_version/coordinator.py:115-118 | a version read from a heading is non-empty digits and dots |
| Extractor.MarkOf | custom_components/global_secure_access_version/coordinator.py:112-117 | only elements are named, only `h1`–`h4` carry a version, and a version is non-empty digits and dots |
| Extractor.MarkOfMeaning | custom_components/global_secure_access_version/coordinator.py:112-117 | a node counts as a version heading of a level exactly when it is that tag and its stripped text matches, with that version |
| Extractor.FindHeadingFrom | custom_components/global_secure_access_version/coordinator.py:112-117 | from a level on, the first version heading of the lowest level with one, and no earlier one of that level |
| Extractor.FindHeading | custom_components/global_secure_access_version/coordinator.py:112-118 | the heading found is the first heading in the scraper's order; none is found exactly when no heading holds a version |
| Extractor.FirstHeadingIsUnique | custom_components/global_secure_access_version/coordinator.py:112-118 | only one heading can be the first |
| Extractor.CleanDate | custom_components/global_secure_access_version/coordinator.py:135-137 | the cleaned date is no longer than the text and has no space or full stop at either end; `Extractor.CleanDateDropsPhrase` states what is removed |
| Extractor.CleanDateDropsPhrase | custom_components/global_secure_access_version/coordinator.py:135-137 | with the first "Released for download on" right after `a`, the cleaned date is `a` followed by `b` with every further phrase removed, trimmed of spaces and full stops at its ends |
| Extractor.CleanDateWithoutPhrase | custom_components/global_secure_access_version/coordinator.py:135-137 | a text without the phrase is only trimmed of spaces and full stops at its ends |
| Extractor.ParagraphDate | custom_components/global_secure_access_version/coordinator.py:132-137 | no contract of its own: the date a paragraph announces; `Extractor.ParagraphDateMeaning` states the date and `Extractor.NoDateWithoutMarker` that a paragraph without the marker gives none |
| Extractor.ParagraphDateMeaning | custom_components/global_secure_access_version/coordinator.py:132-137 | a paragraph whose stripped text is `a + "Released for download on" + b`, the phrase first occurring right after `a`, announces `a` followed by `b` with every further phrase removed, trimmed of spaces and full stops at its ends |
| Extractor.NoDateWithoutMarker | custom_components/global_secure_access_version/coordinator.py:127-137 | the record has no date exactly when no `p` before the first `h1`/`h2` sibling has "Released for download" in its stripped text |
| Extractor.ClassifyMeaning | custom_components/global_secure_access_version/coordinator.py:128-142 | `h1`/`h2` stop the walk, `p` may give the date, `h3`/`h4`/`ul` give changelog text joined with newlines, all other nodes are passed over |
| Extractor.Classify | custom_components/global_secure_access_version/coordinator.py:128-142 | no contract of its own: what the loop does with one sibling; `Extractor.ClassifyMeaning` states it |
| Extractor.Section | custom_components/global_secure_access_version/coordinator.py:127-130 | the section is the prefix before the first `h1`/`h2` sibling, and holds none |
| Extractor.FirstNonEmpty | custom_components/global_secure_access_version/coordinator.py:132 | the first non-empty date, all before it empty, or none |
| Extractor.ChosenDate | custom_components/global_secure_access_version/coordinator.py:124 | no date without candidates; else the first non-empty candidate, or "" when all are empty |
| Extractor.DateCandidatesEmpty | custom_components/global_secure_access_version/coordinator.py:132-137 | there is no date candidate exactly when no paragraph of the section announces a date |
| Extractor.ChangelogPartsEmpty | custom_components/global_secure_access_version/coordinator.py:139-142 | there are no changelog parts exactly when the section has no `h3`, `h4` or `ul` |
| Extractor.MergeDateStep | custom_components/global_secure_access_version/coordinator.py:132-137 | after a falsy date, the next candidate and the rest decide as all candidates together |
| Extractor.CollectSiblings | custom_components/global_secure_access_version/coordinator.py:127-142 | the changelog parts only grow, a truthy date is never replaced, and a new date comes from a paragraph of the siblings |
| Extractor.CollectSiblingsMeetsSection | custom_components/global_secure_access_version/coordinator.py:124-142 | the sibling loop computes the section-based date and changelog |
| Extractor.BuildRelease | custom_components/global_secure_access_version/coordinator.py:124-150 | the record has the heading's version, the first non-empty dated paragraph's date, and a changelog that is absent exactly when there are no parts, else the stripped newline join |
| Extractor.SectionAppend | custom_components/global_secure_access_version/coordinator.py:127-130 | a section ends inside the first block when that block holds a break, else runs into the second |
| Extractor.SiblingsAfterBreakIgnored | custom_components/global_secure_access_version/coordinator.py:127-130 | whatever follows the first `h1`/`h2` sibling does not change the record |
| Extractor.OtherDropsOut | custom_components/global_secure_access_version/coordinator.py:127-142 | a passed-over sibling contributes neither date nor changelog |
| Extractor.IgnoredSiblingChangesNothing | custom_components/global_secure_access_version/coordinator.py:127-142 | removing a text node or an unrelated tag from the siblings leaves the record unchanged |
| Extractor.ScrapeDocument | custom_components/global_secure_access_version/coordinator.py:93-165 | with a first heading, the record built from it; with none, the fallback over the area's text; none exactly when no heading and no text matches |
| Extractor.ScrapeReleaseInfo | custom_components/global_secure_access_version/coordinator.py:85-91 | a failed fetch gives no record; otherwise the page's record, whose version is digits and dots |
| Coordinator.Published | custom_components/global_secure_access_version/coordinator.py:58-61 | the result has exactly the keys "windows" and "macos", holding the two records |
| Coordinator.Init | custom_components/global_secure_access_version/coordinator.py:37 | no contract of its own: the state at construction; `Coordinator.RunFromInit` states what follows from it |
| Coordinator.Succeeds | custom_components/global_secure_access_version/coordinator.py:46-49 | no contract of its own: no timeout and both records present; `Coordinator.Cycle` states that this is exactly when a cycle succeeds |
| Coordinator.Cycle | custom_components/global_secure_access_version/coordinator.py:39-80 | success exactly when no timeout and both records exist; success sets `last_success` to now, clears the issue and publishes both; failure keeps `last_success` and data, and raises the issue iff more than 24 hours passed, or it was already raised |
| Coordinator.UpdateData | custom_components/global_secure_access_version/coordinator.py:39-61 | from two pages: success exactly when both scrapes give a record in time, every published version is digits and dots, failure keeps `last_success` and data |
| Coordinator.LastSuccess | custom_components/global_secure_access_version/coordinator.py:55 | the last successful cycle of a run, with none after it |
| Coordinator.Run | custom_components/global_secure_access_version/coordinator.py:39-80 | no contract of its own: cycles one after another; `Coordinator.RunFromInit` states the state after them |
| Coordinator.RunFromInit | custom_components/global_secure_access_version/coordinator.py:37-80 | after any run: `last_success` is the last success's time (or construction), data is its result, and the issue is raised iff a failed cycle since then came more than 24 hours after it |
| Sensor.UniqueId | custom_components/global_secure_access_version/sensor.py:46 | the id is "gsa_latest_version_" followed by the platform |
| Sensor.UniqueIdIsInjective | custom_components/global_secure_access_version/sensor.py:26-29 | different platforms get different unique ids |
| Sensor.Icon | custom_components/global_secure_access_version/sensor.py:47-49 | the Windows icon iff the platform is "windows", the Apple icon otherwise |
| Sensor.State | custom_components/global_secure_access_version/sensor.py:80-86 | the platform's version when data holds the platform, else none |
| Sensor.PlatformData | custom_components/global_secure_access_version/sensor.py:82-83 | the platform's record is present exactly when there is data holding the platform, and is that entry |
| Sensor.Attributes | custom_components/global_secure_access_version/sensor.py:64-77 | `data_provided_by` always, with the Windows URL iff the platform is "windows"; `release_day` and `changelog` exactly when truthy in the platform's record; no other keys |
| Sensor.Available | custom_components/global_secure_access_version/sensor.py:89-93 | no contract of its own: `last_update_success` and data present; `Sensor.AvailableAfterCycle` states it |
| Sensor.AvailableAfterCycle | custom_components/global_secure_access_version/sensor.py:89-93 | after a cycle the sensor is available exactly when the cycle succeeded |
| Sensor.SensorsFollowCycle | custom_components/global_secure_access_version/sensor.py:80-86 | after a success both sensors show the new versions and others show none; a failure changes no sensor's state or attributes |
| Examples.KeywordThenVersion | custom_components/global_secure_access_version/coordinator.py:110 | "Version " followed by any digits-and-dots run captures that run |
| Examples.VersionHeading | custom_components/global_secure_access_version/coordinator.py:115-118 | an `h2` reading "Version v" announces `v` |
| Examples.TestPageArea | tests/test_coordinator.py:25-30 | the search area of the test page is its `main#main` |
| Examples.NewestSection | custom_components/global_secure_access_version/coordinator.py:127-130 | a heading followed only by white space and the next `h2` gets no date and no changelog |
| Examples.FirstOfTwoHeadingsWins | custom_components/global_secure_access_version/coordinator.py:112-150 | of two version `h2` headings the first one's version is reported |
| Examples.TestPageGivesNewestVersion | tests/test_coordinator.py:25-47 | the test page gives version 2.24.117 |
| Examples.DateParagraphDate | custom_components/global_secure_access_version/coordinator.py:132-137 | "Released for download on <date>." gives the date |
| Examples.SectionWithDate | custom_components/global_secure_access_version/coordinator.py:127-150 | a section holding a date paragraph before the next `h2` gets that date and no changelog |
| Examples.FragmentGivesVersionAndDate | custom_components/global_secure_access_version/coordinator.py:97-150 | `main#main` with a version `h2` and a date paragraph gives both |
| Examples.MarchThirdRelease | custom_components/global_secure_access_version/coordinator.py:97-150 | "Version 2.24.117" with "Released for download on March 3, 2024." gives that version and date |
| Examples.FailureAfter25HoursRaisesIssue | tests/test_coordinator.py:58-66 | a failed cycle 25 hours after the last success raises the issue |
| Examples.FailureWithinADayRaisesNothing | custom_components/global_secure_access_version/coordinator.py:66 | 23 hours, and exactly 24 hours, do not |

## Left out

- HTTP fetching is not modelled. This covers the aiohttp session, the request headers and `raise_for_status` (coordinator.py:85-91). A fetch either yields a parsed page or fails, which is the `Option<Node>` argument of `ScrapeReleaseInfo`.
- The 30-second `async_timeout` is not a clock. It is the `timedOut` flag of a cycle's input.
- BeautifulSoup's HTML parser is not modelled: the tree is taken as parsed.
  - Tag names are taken as already lower-case.
  - Of the attributes only `id` is kept.
  - Comments, processing instructions and the text inside `script`, `style`, `template`, `rt` and `rp` are not in the tree. The HTML builders keep those texts as special string kinds, and `get_text` leaves them out.
  - CDATA sections are not in the tree either. `get_text` does read them, so a heading or paragraph whose text sits in a CDATA section reads differently in the model.
- `Extractor.HeadingVersion`: Python's `\d` and IGNORECASE also accept non-ASCII digits and case foldings. The model accepts ASCII digits and ASCII case only. `\s` and `strip()` use Python's full `isspace` set.
- Time is whole seconds, and `timedelta(hours=24)` is 86400.
- Home Assistant's framework is not modelled:
  - the scheduling every day (`update_interval`);
  - the setting of `last_update_success`, which is an input of `Sensor.Available`;
  - keeping `data` after a failed cycle is done by the framework, not by `_async_update_data`. `Coordinator.Cycle` takes it as given.
- The issue registry is a boolean flag. The issue's severity, translation key and link are not modelled.
- Logging and the text of the `UpdateFailed` messages are not modelled.
- `device_info`, `translation_key`, `has_entity_name` and `async_setup_entry` are not modelled. The two platforms it creates appear only through `Sensor.UniqueIdIsInjective`. `__init__.py` is not part of this model.
- Concurrency is not modelled: the code fetches the two pages one after the other, and one cycle is one step.

=== FILE: coordinator.dfy ===
/** `_async_update_data` (coordinator.py) as a pure step: one refresh cycle
    of the data-update coordinator, taking the two scrape results and the
    current time in whole seconds. */
module Coordinator {
  import opened Wrappers
  import opened Document
  import opened Extractor
  import VersionPattern

  /** `timedelta(hours=24)` in seconds. */
  const Day: int := 24 * 60 * 60

  /** The id of the repair issue raised after a day of failures. */
  const IssueId: string := "scraping_failure"

  /** The platform keys of the result dict. */
  const WindowsKey: string := "windows"
  const MacosKey: string := "macos"

  /** What one coordinator carries between cycles: `last_success`, whether
      the "scraping_failure" issue is currently raised in the issue registry,
      and the result of the last successful cycle, which the framework keeps
      as `coordinator.data` (None before the first success). */
  datatype State = State(lastSuccess: int, issueRaised: bool, data: Option<map<string, Release>>)

  /** What one cycle is given: the two scrape results (None when the page
      could not be fetched or held no version), whether the 30-second
      timeout cut the cycle short, and the current time. */
  datatype CycleInput = CycleInput(windows: Option<Release>, macos: Option<Release>, timedOut: bool, now: int)

  /** What the cycle hands back to the framework: the fresh two-key result,
      or `UpdateFailed`. */
  datatype Outcome = Refreshed(result: map<string, Release>) | UpdateFailed

  datatype Step = Step(state: State, outcome: Outcome)

  /** The coordinator right after construction: `last_success` is the
      construction time, no issue, no data. */
  function Init(now: int): State {
    State(now, false, None)
  }

  /** The cycle succeeds: no timeout and both scrapes found a version. */
  predicate Succeeds(i: CycleInput) {
    !i.timedOut && i.windows.Some? && i.macos.Some?
  }

  /** The result dict of a successful cycle. */
  function Published(windows: Release, macos: Release): (m: map<string, Release>)
    ensures m.Keys == {WindowsKey, MacosKey}
    ensures m[WindowsKey] == windows && m[MacosKey] == macos
  {
    map[WindowsKey := windows, MacosKey := macos]
  }

  /** One cycle. On success: the result has exactly the two platform keys,
      `last_success` becomes `now` and the issue is deleted. On failure
      (timeout, or either scrape missing, which the handler catches too):
      `UpdateFailed`, nothing but the issue changes, and the issue is raised
      when more than a day has passed since the last success. */
  function Cycle(s: State, i: CycleInput): (r: Step)
    ensures r.outcome.Refreshed? <==> Succeeds(i)
    ensures r.outcome.Refreshed? ==>
              && r.outcome.result.Keys == {WindowsKey, MacosKey}
              && r.outcome.result[WindowsKey] == i.windows.value
              && r.outcome.result[MacosKey] == i.macos.value
              && r.state == State(i.now, false, Some(r.outcome.result))
    ensures r.outcome.UpdateFailed? ==>
              && r.state.lastSuccess == s.lastSuccess
              && r.state.data == s.data
              && (r.state.issueRaised <==> s.issueRaised || i.now - s.lastSuccess > Day)
  {
    if Succeeds(i) then
      var result := Published(i.windows.value, i.macos.value);
      Step(State(i.now, false, Some(result)), Refreshed(result))
    else
      var raise := i.now - s.lastSuccess > Day;
      Step(s.(issueRaised := s.issueRaised || raise), UpdateFailed)
  }

  /** `_async_update_data` from the fetched pages: each page is scraped, then
      the cycle decides. Every version it publishes is a run of digits and
      dots. */
  function UpdateData(s: State, windowsPage: Option<Node>, macosPage: Option<Node>, timedOut: bool, now: int): (r: Step)
    ensures r.outcome.Refreshed? <==>
              !timedOut && ScrapeReleaseInfo(windowsPage).Some? && ScrapeReleaseInfo(macosPage).Some?
    ensures r.outcome.Refreshed? ==>
              forall key :: key in r.outcome.result ==> VersionPattern.IsVersionString(r.outcome.result[key].version)
    ensures r.outcome.UpdateFailed? ==> r.state.lastSuccess == s.lastSuccess && r.state.data == s.data
  {
    Cycle(s, CycleInput(ScrapeReleaseInfo(windowsPage), ScrapeReleaseInfo(macosPage), timedOut, now))
  }

  /** The state after a sequence of cycles, oldest first. */
  function Run(s: State, inputs: seq<CycleInput>): State
    decreases |inputs|
  {
    if inputs == [] then s
    else Cycle(Run(s, inputs[..|inputs| - 1]), inputs[|inputs| - 1]).state
  }

  /** The index of the last successful cycle. */
  function LastSuccess(inputs: seq<CycleInput>): (r: Option<nat>)
    ensures r.Some? ==> r.value < |inputs| && Succeeds(inputs[r.value])
                        && forall j :: r.value < j < |inputs| ==> !Succeeds(inputs[j])
    ensures r.None? ==> forall j :: 0 <= j < |inputs| ==> !Succeeds(inputs[j])
    decreases |inputs|
  {
    if inputs == [] then None
    else if Succeeds(inputs[|inputs| - 1]) then Some(|inputs| - 1)
    else LastSuccess(inputs[..|inputs| - 1])
  }

  /** Over any run from construction: `last_success` is the time of the last
      successful cycle (or the construction time), the data is that cycle's
      result (or none), and the issue is raised exactly when some failed
      cycle since then came more than a day after `last_success`. */
  lemma {:induction false} RunFromInit(t0: int, inputs: seq<CycleInput>)
    ensures var s := Run(Init(t0), inputs);
            var last := LastSuccess(inputs);
            var from := if last.Some? then last.value + 1 else 0;
              && s.lastSuccess == (if last.Some? then inputs[last.value].now else t0)
              && s.data == (if last.Some? then Some(Published(inputs[last.value].windows.value, inputs[last.value].macos.value)) else None)
              && (s.issueRaised <==> exists j :: from <= j < |inputs| && inputs[j].now - s.lastSuccess > Day)
  {
    if inputs != [] {
      var n := |inputs|;
      var pre := inputs[..n - 1];
      var i := inputs[n - 1];
      RunFromInit(t0, pre);
      assert forall j :: 0 <= j < n - 1 ==> pre[j] == inputs[j];
      var s' := Run(Init(t0), pre);
      if !Succeeds(i) {
        assert LastSuccess(inputs) == LastSuccess(pre);
        var last := LastSuccess(pre);
        var from := if last.Some? then last.value + 1 else 0;
        assert (exists j :: from <= j < n && inputs[j].now - s'.lastSuccess > Day) <==>
               (exists j :: from <= j < n - 1 && pre[j].now - s'.lastSuccess > Day)
               || i.now - s'.lastSuccess > Day;
      }
    }
  }
}

=== FILE: document.dfy ===
/** A parsed HTML document and the few BeautifulSoup queries the scraper
    makes of it: `find`, `find_all`, `next_siblings` and the `get_text`
    variants. The tree is what the parser hands over: tag names are already
    lower-case, and only the `id` attribute is kept because it is the only one
    the scraper looks at. */
module Document {
  import opened Wrappers
  import StringOps

  /** A text node or an element. The document itself is an element too (the
      parser names it "[document]"). */
  datatype Node =
    | Text(s: string)
    | Elem(name: string, id: Option<string>, children: seq<Node>)

  /** `node.name == tag`; a text node has no name and never matches. */
  predicate HasName(n: Node, tag: string) {
    n.Elem? && n.name == tag
  }

  /** One step of a walk: a node together with its `next_siblings`, the
      entries of its parent's children that come after it. */
  datatype Visit = Visit(node: Node, following: seq<Node>)

  /** The pre-order walk of a forest of siblings: each node, then everything
      below it, then its later siblings. */
  function Walk(ns: seq<Node>): (r: seq<Visit>)
    ensures |r| == ForestSize(ns)
  {
    if ns == [] then []
    else [Visit(ns[0], ns[1..])] + Descendants(ns[0]) + Walk(ns[1..])
  }

  /** `node.descendants` in document order, each with its next siblings. */
  function Descendants(n: Node): (r: seq<Visit>)
    ensures |r| + 1 == Size(n)
  {
    match n
    case Text(_) => []
    case Elem(_, _, cs) => Walk(cs)
  }

  /** The number of nodes in a tree, the node itself included. */
  function Size(n: Node): nat {
    match n
    case Text(_) => 1
    case Elem(_, _, cs) => 1 + ForestSize(cs)
  }

  function ForestSize(ns: seq<Node>): nat {
    if ns == [] then 0 else Size(ns[0]) + ForestSize(ns[1..])
  }

  /** Every node of the forest is visited, together with the siblings after
      it, and so is everything below it. */
  lemma {:induction false} WalkVisitsEachNode(ns: seq<Node>, k: nat)
    requires k < |ns|
    ensures Visit(ns[k], ns[k + 1..]) in Walk(ns)
    ensures forall v | v in Descendants(ns[k]) :: v in Walk(ns)
  {
    var w := Walk(ns);
    assert w == [Visit(ns[0], ns[1..])] + Descendants(ns[0]) + Walk(ns[1..]);
    if k > 0 {
      WalkVisitsEachNode(ns[1..], k - 1);
      assert ns[1..][k - 1] == ns[k] && ns[1..][k..] == ns[k + 1..];
    }
  }

  /** `node.descendants` holds each child with its next siblings, and the
      descendants of every child. */
  lemma ChildrenAreDescendants(n: Node, k: nat)
    requires n.Elem? && k < |n.children|
    ensures Visit(n.children[k], n.children[k + 1..]) in Descendants(n)
    ensures forall v | v in Descendants(n.children[k]) :: v in Descendants(n)
  {
    WalkVisitsEachNode(n.children, k);
  }

  /** The raw text nodes of a node, read depth-first from left to right. */
  function Strings(n: Node): seq<string> {
    match n
    case Text(s) => [s]
    case Elem(_, _, cs) => ForestStrings(cs)
  }

  function ForestStrings(ns: seq<Node>): seq<string> {
    if ns == [] then [] else Strings(ns[0]) + ForestStrings(ns[1..])
  }

  /** The text nodes met along a walk, in walk order. */
  function TextsOf(vs: seq<Visit>): seq<string> {
    if vs == [] then []
    else (if vs[0].node.Text? then [vs[0].node.s] else []) + TextsOf(vs[1..])
  }

  lemma {:induction false} TextsOfAppend(a: seq<Visit>, b: seq<Visit>)
    ensures TextsOf(a + b) == TextsOf(a) + TextsOf(b)
  {
    if a == [] {
      assert a + b == b;
    } else {
      assert (a + b)[1..] == a[1..] + b;
      TextsOfAppend(a[1..], b);
    }
  }

  /** The text of an element is read in the same order as its descendants
      are walked: the text nodes of `n.descendants`, in order. */
  lemma {:induction false} StringsFollowDescendants(n: Node)
    requires n.Elem?
    ensures Strings(n) == TextsOf(Descendants(n))
  {
    ForestStringsFollowWalk(n.children);
  }

  lemma {:induction false} ForestStringsFollowWalk(ns: seq<Node>)
    ensures ForestStrings(ns) == TextsOf(Walk(ns))
  {
    if ns != [] {
      var head := [Visit(ns[0], ns[1..])];
      TextsOfAppend(head + Descendants(ns[0]), Walk(ns[1..]));
      TextsOfAppend(head, Descendants(ns[0]));
      assert TextsOf(head) == (if ns[0].Text? then [ns[0].s] else []);
      ForestStringsFollowWalk(ns[1..]);
      if ns[0].Elem? {
        ForestStringsFollowWalk(ns[0].children);
      }
    }
  }

  /** A non-empty text with no white space at either end. */
  predicate IsStrippedText(t: string) {
    t != "" && !StringOps.IsSpace(t[0]) && !StringOps.IsSpace(t[|t| - 1])
  }

  /** Every text in `ss` is white space only, so it strips to nothing. */
  predicate AllBlank(ss: seq<string>) {
    forall i :: 0 <= i < |ss| ==> StringOps.IsBlank(ss[i])
  }

  /** The text nodes after `strip()`, with those that strip to nothing left
      out: what `get_text(strip=True)` joins. */
  function StrippedStrings(ss: seq<string>): seq<string> {
    if ss == [] then []
    else
      var t := StringOps.Strip(ss[0]);
      if t == "" then StrippedStrings(ss[1..]) else [t] + StrippedStrings(ss[1..])
  }

  /** The texts are stripped one by one, so the strings of two runs of
      text nodes are those of the first run followed by those of the
      second. */
  lemma {:induction false} StrippedStringsAppend(a: seq<string>, b: seq<string>)
    ensures StrippedStrings(a + b) == StrippedStrings(a) + StrippedStrings(b)
    decreases |a|
  {
    if a == [] {
      assert a + b == b;
    } else {
      assert (a + b)[0] == a[0] && (a + b)[1..] == a[1..] + b;
      StrippedStringsAppend(a[1..], b);
    }
  }

  /** Every text in `ss` is stripped and non-empty. */
  predicate AllStripped(ss: seq<string>) {
    forall i :: 0 <= i < |ss| ==> IsStrippedText(ss[i])
  }

  /** Every text kept is stripped and non-empty. */
  lemma {:induction false} StrippedStringsAreStripped(ss: seq<string>)
    ensures AllStripped(StrippedStrings(ss))
  {
    if ss != [] {
      StrippedStringsAreStripped(ss[1..]);
      var t := StringOps.Strip(ss[0]);
      var rest := StrippedStrings(ss[1..]);
      assert AllStripped(rest);
      if t != "" {
        StripGivesStrippedText(ss[0]);
        AllStrippedCons(t, rest);
      }
    }
  }

  lemma AllStrippedCons(t: string, rest: seq<string>)
    requires IsStrippedText(t) && AllStripped(rest)
    ensures AllStripped([t] + rest)
  {
    assert forall i :: 1 <= i < |[t] + rest| ==> ([t] + rest)[i] == rest[i - 1];
  }

  lemma StripGivesStrippedText(s: string)
    requires StringOps.Strip(s) != ""
    ensures IsStrippedText(StringOps.Strip(s))
  {
  }

  /** Nothing is kept exactly when every text is blank. */
  lemma {:induction false} StrippedStringsEmpty(ss: seq<string>)
    ensures StrippedStrings(ss) == [] <==> AllBlank(ss)
  {
    if ss != [] {
      StrippedStringsEmpty(ss[1..]);
      AllBlankUnfold(ss);
    }
  }

  lemma AllBlankUnfold(ss: seq<string>)
    requires ss != []
    ensures AllBlank(ss) <==> StringOps.IsBlank(ss[0]) && AllBlank(ss[1..])
  {
    assert forall i :: 1 <= i < |ss| ==> ss[i] == ss[1..][i - 1];
  }

  /** `node.get_text(separator, strip)`. */
  function GetText(n: Node, separator: string, strip: bool): (r: string)
    ensures strip ==> (r == "" <==> AllBlank(Strings(n)))
    ensures strip && r != "" ==> IsStrippedText(r)
  {
    StrippedStringsAreStripped(Strings(n));
    StrippedStringsEmpty(Strings(n));
    if strip then StrippedJoin(separator, StrippedStrings(Strings(n)))
    else StringOps.Join(separator, Strings(n))
  }

  /** An element holding one text node that is already stripped has that
      text as its stripped text, whatever the separator. */
  lemma StrippedTextOfSingleText(name: string, id: Option<string>, t: string, separator: string)
    requires IsStrippedText(t)
    ensures GetText(Elem(name, id, [Text(t)]), separator, true) == t
  {
    var n := Elem(name, id, [Text(t)]);
    assert [Text(t)][1..] == [];
    assert ForestStrings([Text(t)]) == Strings(Text(t)) + ForestStrings([]);
    assert Strings(n) == [t];
    StringOps.StripKeepsTrimmedText(t);
    assert StrippedStrings([t]) == [t] by {
      assert [t][1..] == [];
    }
  }

  /** Joining stripped texts gives a stripped text, or nothing when there
      are no texts to join. */
  function StrippedJoin(separator: string, parts: seq<string>): (r: string)
    requires AllStripped(parts)
    ensures r == "" <==> parts == []
    ensures r != "" ==> IsStrippedText(r)
  {
    var r := StringOps.Join(separator, parts);
    if parts == [] then r
    else
      var first, last := parts[0], parts[|parts| - 1];
      StringOps.JoinEndsWithLast(separator, parts);
      assert IsStrippedText(first) && IsStrippedText(last);
      assert r[0] == first[0];
      assert r[|r| - 1] == last[|last| - 1] by {
        assert r[|r| - |last|..][|last| - 1] == last[|last| - 1];
      }
      r
  }

  /** The element `soup.find("main", id="main")` looks for. */
  predicate IsMainContent(n: Node) {
    n.Elem? && n.name == "main" && n.id == Some("main")
  }

  /** The index of the first element of `xs` that satisfies `p`. */
  function FirstIndex<T>(xs: seq<T>, p: T -> bool): (r: Option<nat>)
    ensures r.Some? ==> r.value < |xs| && p(xs[r.value])
                        && forall k :: 0 <= k < r.value ==> !p(xs[k])
    ensures r.None? ==> forall k :: 0 <= k < |xs| ==> !p(xs[k])
  {
    if xs == [] then None
    else if p(xs[0]) then Some(0)
    else match FirstIndex(xs[1..], p)
      case Some(k) => Some(k + 1)
      case None => None
  }

  /** The area the scraper searches: the first `main` element with id "main"
      in document order, or the whole document when there is none. Looking
      it up never fails. */
  function SearchArea(doc: Node): (area: Node)
    ensures var ds := Descendants(doc);
              (forall k :: 0 <= k < |ds| ==> !IsMainContent(ds[k].node)) ==> area == doc
    ensures var ds := Descendants(doc);
              (exists k :: 0 <= k < |ds| && IsMainContent(ds[k].node)) ==>
                IsMainContent(area)
                && exists k :: 0 <= k < |ds| && ds[k].node == area
                               && forall j :: 0 <= j < k ==> !IsMainContent(ds[j].node)
  {
    match FirstIndex(Descendants(doc), (v: Visit) => IsMainContent(v.node))
    case Some(k) => Descendants(doc)[k].node
    case None => doc
  }
}

=== FILE: examples.dfy ===
/** Concrete cases: the page of the coordinator test with two `h2` version
    headings, a release section with a date paragraph, and the 24-hour
    issue threshold. */
module Examples {
  import opened Wrappers
  import StringOps
  import VersionPattern
  import opened Document
  import opened Extractor
  import Coordinator

  // ---------------------------------------------------------------------
  // The test page: two version headings inside main#main
  // ---------------------------------------------------------------------

  /** The heading text of the newest release on the test page. */
  const NewestText: string := "Version 2.24.117"

  /** An `h2` holding one text node. */
  function Heading(text: string): Node {
    Elem("h2", None, [Text(text)])
  }

  /** `main#main` of the test page. */
  function MainOf(gap: string, newest: string, older: string): Node {
    Elem("main", Some("main"), [Text(gap), Heading(newest), Text(gap), Heading(older), Text(gap)])
  }

  /** The test page, with the white space between the tags and the text of
      the older heading left open: `[document]` holding a gap, `html`, a gap;
      `html > body > main#main`, and `main` holding a gap, the newest heading,
      a gap, the older heading, a gap. */
  function PageOf(gap: string, newest: string, older: string): Node {
    Elem("[document]", None, [Text(gap), Elem("html", None, [Elem("body", None, [MainOf(gap, newest, older)])]), Text(gap)])
  }

  /** `Walk` of one node. */
  lemma WalkOne(n: Node)
    ensures Walk([n]) == [Visit(n, [])] + Descendants(n)
  {
    assert [n][1..] == [];
    assert Walk([n]) == [Visit(n, [])] + Descendants(n) + Walk([]);
  }

  /** A heading text of the form "Version <v>" yields `v`, whatever run of
      digits and dots `v` is. */
  lemma KeywordThenVersion(v: string)
    requires VersionPattern.IsVersionString(v)
    ensures VersionPattern.Search("Version " + v) == Some(v)
  {
    var s := "Version " + v;
    var m := VersionPattern.Match(0, 8, |s|);
    assert VersionPattern.KeywordAt(s, 0) by {
      forall k | 0 <= k < 7
        ensures StringOps.Lower(s[k]) == VersionPattern.Keyword[k]
      {
        assert s[k] == "Version "[k];
      }
    }
    assert VersionPattern.IsSeparator(s[7]);
    assert forall k :: 8 <= k < |s| ==> s[k] == v[k - 8];
    assert VersionPattern.IsMatch(s, m);
    VersionPattern.LeftmostMatchIsReported(s, m);
    assert s[8..|s|] == v;
  }

  /** An `h2` reading "Version <v>" announces `v`. */
  lemma VersionHeading(v: string)
    requires VersionPattern.IsVersionString(v)
    ensures HeadingVersion(Heading("Version " + v)) == Some(v)
  {
    var text := "Version " + v;
    assert text[0] == 'V';
    assert text[|text| - 1] == v[|v| - 1];
    VersionPattern.DigitIsNoSeparator(v[|v| - 1]);
    StrippedTextOfSingleText("h2", None, text, "");
    KeywordThenVersion(v);
  }

  /** The search area of the test page is its `main` element. */
  lemma TestPageArea(gap: string, newest: string, older: string)
    ensures SearchArea(PageOf(gap, newest, older)) == MainOf(gap, newest, older)
  {
    var main := MainOf(gap, newest, older);
    var body := Elem("body", None, [main]);
    var html := Elem("html", None, [body]);
    PageTop(gap, html);
    WalkOne(body);
    WalkOne(main);
    var ds := Descendants(PageOf(gap, newest, older));
    assert ds[..4] == [Visit(Text(gap), [html, Text(gap)]), Visit(html, [Text(gap)]), Visit(body, []), Visit(main, [])];
    assert ds[3].node == main;
  }

  /** The walk of a document element between two gaps starts with the
      first gap and then the element. */
  lemma PageTop(gap: string, html: Node)
    ensures Walk([Text(gap), html, Text(gap)]) ==
              [Visit(Text(gap), [html, Text(gap)]), Visit(html, [Text(gap)])] + Descendants(html) + [Visit(Text(gap), [])]
  {
    var top := [Text(gap), html, Text(gap)];
    assert top[1..] == [html, Text(gap)];
    assert top[1..][1..] == [Text(gap)];
    assert Walk(top) == [Visit(Text(gap), top[1..])] + Walk(top[1..]);
    assert Walk(top[1..]) == [Visit(html, [Text(gap)])] + Descendants(html) + Walk([Text(gap)]);
    WalkOne(Text(gap));
  }

  /** The walk of the test page's `main` element. */
  lemma MainAreaWalk(gap: string, newest: string, older: string)
    ensures var g, n, o := Text(gap), Heading(newest), Heading(older);
            Descendants(MainOf(gap, newest, older)) ==
              [ Visit(g, [n, g, o, g]),
                Visit(n, [g, o, g]), Visit(Text(newest), []),
                Visit(g, [o, g]),
                Visit(o, [g]), Visit(Text(older), []),
                Visit(g, []) ]
  {
    var cs := MainOf(gap, newest, older).children;
    assert cs[1..][0] == cs[1];
    assert cs[1..][1..] == cs[2..];
    assert cs[2..][1..] == cs[3..];
    assert cs[3..][1..] == cs[4..];
    assert cs[4..] == [Text(gap)];
    assert Walk(cs) == [Visit(cs[0], cs[1..])] + Walk(cs[1..]);
    assert Walk(cs[1..]) == [Visit(cs[1], cs[2..])] + Descendants(cs[1]) + Walk(cs[2..]);
    assert Walk(cs[2..]) == [Visit(cs[2], cs[3..])] + Walk(cs[3..]);
    assert Walk(cs[3..]) == [Visit(cs[3], cs[4..])] + Descendants(cs[3]) + Walk(cs[4..]);
    WalkOne(Text(gap));
    WalkOne(Text(newest));
    WalkOne(Text(older));
  }

  /** In the walk of the `main` element, the first `h2` is the heading the
      search settles on as soon as it holds a version: there is no `h1`. */
  lemma MainAreaFirstHeading(gap: string, newest: string, older: string)
    requires HeadingVersion(Heading(newest)).Some?
    ensures var ms := Marks(Descendants(MainOf(gap, newest, older)));
              IsFirstHeading(ms, Hit(1, 1)) && ms[1].version == HeadingVersion(Heading(newest))
  {
    MainAreaMarks(gap, newest, older);
    MainAreaHasNoH1(gap, newest, older);
    SecondMarkIsFirstHeading(Marks(Descendants(MainOf(gap, newest, older))));
  }

  /** A version `h2` at index 1 after a mark that is not one, with no `h1`
      anywhere, is the first heading. */
  lemma SecondMarkIsFirstHeading(ms: seq<Mark>)
    requires |ms| > 1 && !IsVersionHeading(ms[0], "h2") && IsVersionHeading(ms[1], "h2")
    requires forall k :: 0 <= k < |ms| ==> ms[k].name != Some("h1")
    ensures IsFirstHeading(ms, Hit(1, 1))
  {
    assert Headings[0] == "h1" && Headings[1] == "h2";
  }

  lemma MainAreaMarks(gap: string, newest: string, older: string)
    requires HeadingVersion(Heading(newest)).Some?
    ensures var ms := Marks(Descendants(MainOf(gap, newest, older)));
              && |ms| > 1
              && !IsVersionHeading(ms[0], "h2")
              && IsVersionHeading(ms[1], "h2")
              && ms[1].version == HeadingVersion(Heading(newest))
  {
    MainAreaStart(gap, newest, older);
    var ms := Marks(Descendants(MainOf(gap, newest, older)));
    assert ms[0] == MarkOf(Text(gap));
    assert ms[1] == MarkOf(Heading(newest));
    HeadingMark(Heading(newest));
  }

  /** An `h2` is marked with its name and the version its text announces,
      if any. */
  lemma HeadingMark(n: Node)
    requires HasName(n, "h2")
    ensures MarkOf(n) == Mark(Some("h2"), HeadingVersion(n))
  {
    H2IsSearched();
  }

  lemma H2IsSearched()
    ensures "h2" in Headings
  {
    assert Headings[1] == "h2";
  }

  lemma MainAreaStart(gap: string, newest: string, older: string)
    ensures var walk := Descendants(MainOf(gap, newest, older));
              |walk| == 7 && walk[0].node == Text(gap) && walk[1].node == Heading(newest)
              && walk[1].following == [Text(gap), Heading(older), Text(gap)]
  {
    MainAreaWalk(gap, newest, older);
  }

  lemma MainAreaHasNoH1(gap: string, newest: string, older: string)
    ensures var ms := Marks(Descendants(MainOf(gap, newest, older)));
            forall k :: 0 <= k < |ms| ==> ms[k].name != Some("h1")
  {
    MainAreaWalk(gap, newest, older);
    var walk := Descendants(MainOf(gap, newest, older));
    assert forall k :: 0 <= k < |walk| ==> !HasName(walk[k].node, "h1");
    NoTagNoMark(walk, "h1");
  }

  /** A tag that names no node of a walk names none of its marks. */
  lemma NoTagNoMark(walk: seq<Visit>, tag: string)
    requires forall k :: 0 <= k < |walk| ==> !HasName(walk[k].node, tag)
    ensures var ms := Marks(walk); forall k :: 0 <= k < |ms| ==> ms[k].name != Some(tag)
  {
  }

  /** Only text and the next `h2` follow the first heading, so its section
      is empty. */
  lemma NewestSection(version: string, gap: string, older: string)
    ensures BuildRelease(version, [Text(gap), Heading(older), Text(gap)]) == Release(version, None, None)
  {
    var following := [Text(gap), Heading(older), Text(gap)];
    var cs := Classified(following);
    assert cs == [Other, Break, Other];
    assert Section(cs) == [Other] by {
      assert cs[1..][0].Break?;
    }
    assert DateCandidates([Other]) == [] && ChangelogParts([Other]) == [] by {
      assert [Other][1..] == [];
    }
  }

  /** Of two `h2` version headings the first in document order wins,
      whatever the second one says; nothing follows it in its section, so
      there is neither a date nor a changelog. */
  lemma FirstOfTwoHeadingsWins(gap: string, newest: string, older: string)
    requires HeadingVersion(Heading(newest)).Some?
    ensures ScrapeDocument(PageOf(gap, newest, older)) == Some(Release(HeadingVersion(Heading(newest)).value, None, None))
  {
    TestPageArea(gap, newest, older);
    MainAreaStart(gap, newest, older);
    MainAreaFirstHeading(gap, newest, older);
    NewestSection(HeadingVersion(Heading(newest)).value, gap, older);
  }

  /** The coordinator test's page, whose first heading reads
      "Version 2.24.117": version 2.24.117 is reported. */
  lemma TestPageGivesNewestVersion(gap: string, older: string)
    ensures ScrapeDocument(PageOf(gap, NewestText, older)) == Some(Release("2.24.117", None, None))
  {
    var v := "2.24.117";
    assert VersionPattern.IsVersionString(v);
    assert NewestText == "Version " + v;
    VersionHeading(v);
    FirstOfTwoHeadingsWins(gap, NewestText, older);
  }

  // ---------------------------------------------------------------------
  // A release section with its date paragraph
  // ---------------------------------------------------------------------

  /** The line a release-history page puts under a version heading. */
  function DateLine(date: string): string {
    ReleasedPrefix + " " + date + "."
  }

  function DateParagraph(date: string): Node {
    Elem("p", None, [Text(DateLine(date))])
  }

  /** A date with neither a space nor a full stop at its ends. */
  predicate IsCleanDate(date: string) {
    date != [] && date[0] !in DateTrim && date[|date| - 1] !in DateTrim
  }

  /** The phrase and the surrounding space and full stop come off; the date
      is what remains. */
  lemma CleanDateOfDateLine(date: string)
    requires IsCleanDate(date)
    requires !StringOps.Contains(" " + date + ".", ReleasedPrefix)
    ensures CleanDate(DateLine(date)) == date
  {
    var rest := " " + date + ".";
    assert DateLine(date) == ReleasedPrefix + rest;
    RemoveLeadingOccurrence(ReleasedPrefix, rest);
    TrimDateEnds(date);
  }

  lemma RemoveLeadingOccurrence(pat: string, rest: string)
    requires pat != [] && !StringOps.Contains(rest, pat)
    ensures StringOps.RemoveAll(pat + rest, pat) == rest
  {
    StringOps.RemoveAllAtOccurrence(pat, rest);
    StringOps.RemoveAllWithoutOccurrence(rest, pat);
  }

  lemma TrimDateEnds(date: string)
    requires IsCleanDate(date)
    ensures StringOps.StripChars(" " + date + ".", DateTrim) == date
  {
    var rest := " " + date + ".";
    assert rest[1..] == date + ".";
    assert StringOps.TrimLeft(date + ".", DateTrim) == date + ".";
    assert StringOps.TrimLeft(rest, DateTrim) == date + ".";
    assert (date + ".")[..|date|] == date;
    assert StringOps.TrimRight(date, DateTrim) == date;
    assert StringOps.TrimRight(date + ".", DateTrim) == date;
  }

  /** A date paragraph announces its date. */
  lemma DateParagraphDate(date: string)
    requires IsCleanDate(date)
    requires !StringOps.Contains(" " + date + ".", ReleasedPrefix)
    ensures ParagraphDate(DateParagraph(date)) == Some(date)
  {
    var line := DateLine(date);
    assert line[0] == 'R' && line[|line| - 1] == '.';
    StrippedTextOfSingleText("p", None, line, "");
    assert line[..|ReleasedMarker|] == ReleasedMarker;
    assert StringOps.OccursAt(line, ReleasedMarker, 0);
    CleanDateOfDateLine(date);
  }

  /** A heading whose section holds a date paragraph gets that date. */
  lemma SectionWithDate(version: string, gap: string, date: string, older: string)
    requires IsCleanDate(date)
    requires !StringOps.Contains(" " + date + ".", ReleasedPrefix)
    ensures BuildRelease(version, [Text(gap), DateParagraph(date), Text(gap), Heading(older)])
            == Release(version, Some(date), None)
  {
    ClassifyDateParagraph(date);
    SectionWithParagraph(version, gap, DateParagraph(date), date, older);
  }

  /** The section `gap, p, gap, h2` takes its date from `p` alone. */
  lemma SectionWithParagraph(version: string, gap: string, p: Node, date: string, older: string)
    requires Classify(p) == Paragraph(Some(date))
    ensures BuildRelease(version, [Text(gap), p, Text(gap), Heading(older)]) == Release(version, Some(date), None)
  {
    ClassifiedFour(Text(gap), p, Text(gap), Heading(older));
    ClassifyHeading(older);
    DateSection(date);
    ChosenDateOfOne(date);
  }

  /** A single candidate is the date, empty or not. */
  lemma ChosenDateOfOne(d: string)
    ensures ChosenDate([d]) == Some(d)
  {
    assert [d][1..] == [];
  }

  lemma ClassifiedFour(a: Node, b: Node, c: Node, d: Node)
    ensures Classified([a, b, c, d]) == [Classify(a), Classify(b), Classify(c), Classify(d)]
  {
  }

  lemma ClassifyHeading(text: string)
    ensures Classify(Heading(text)) == Break
  {
  }

  lemma ClassifyDateParagraph(date: string)
    requires IsCleanDate(date)
    requires !StringOps.Contains(" " + date + ".", ReleasedPrefix)
    ensures Classify(DateParagraph(date)) == Paragraph(Some(date))
  {
    DateParagraphDate(date);
  }

  lemma DateSection(date: string)
    ensures var sec := Section([Other, Paragraph(Some(date)), Other, Break]);
              DateCandidates(sec) == [date] && ChangelogParts(sec) == []
  {
    var p := Paragraph(Some(date));
    assert [Other, p, Other, Break] == [Other] + ([p] + ([Other] + ([Break] + [])));
    SectionCons(Break, []);
    SectionCons(Other, [Break]);
    SectionCons(p, [Other, Break]);
    SectionCons(Other, [p, Other, Break]);
    assert Section([Other, p, Other, Break]) == [Other] + ([p] + ([Other] + []));
    DateCandidatesCons(Other, []);
    DateCandidatesCons(p, [Other]);
    DateCandidatesCons(Other, [p, Other]);
    ChangelogPartsCons(Other, []);
    ChangelogPartsCons(p, [Other]);
    ChangelogPartsCons(Other, [p, Other]);
  }

  /** "Released for download on March 3, 2024." gives the date
      "March 3, 2024". */
  lemma MarchThirdDate()
    ensures ParagraphDate(DateParagraph("March 3, 2024")) == Some("March 3, 2024")
  {
    var date := "March 3, 2024";
    assert !StringOps.Contains(" " + date + ".", ReleasedPrefix) by {
      assert |" " + date + "."| < |ReleasedPrefix|;
    }
    DateParagraphDate(date);
  }

  // ---------------------------------------------------------------------
  // A heading with its date paragraph: version and date together
  // ---------------------------------------------------------------------

  /** `<main id="main"><h2>…</h2><p>Released for download on …</p></main>`
      as a parsed document. */
  function FragmentMain(heading: string, date: string): Node {
    Elem("main", Some("main"), [Heading(heading), DateParagraph(date)])
  }

  function FragmentOf(heading: string, date: string): Node {
    Elem("[document]", None, [FragmentMain(heading, date)])
  }

  lemma FragmentArea(heading: string, date: string)
    ensures SearchArea(FragmentOf(heading, date)) == FragmentMain(heading, date)
  {
    WalkOne(FragmentMain(heading, date));
  }

  lemma FragmentWalk(heading: string, date: string)
    ensures Descendants(FragmentMain(heading, date)) ==
              [ Visit(Heading(heading), [DateParagraph(date)]), Visit(Text(heading), []),
                Visit(DateParagraph(date), []), Visit(Text(DateLine(date)), []) ]
  {
    var cs := FragmentMain(heading, date).children;
    assert cs[1..] == [DateParagraph(date)];
    assert Walk(cs) == [Visit(cs[0], cs[1..])] + Descendants(cs[0]) + Walk(cs[1..]);
    WalkOne(Text(heading));
    WalkOne(DateParagraph(date));
    WalkOne(Text(DateLine(date)));
  }

  /** A version `h2` at index 0, with no `h1` anywhere, is the first
      heading. */
  lemma FirstMarkIsFirstHeading(ms: seq<Mark>)
    requires |ms| > 0 && IsVersionHeading(ms[0], "h2")
    requires forall k :: 0 <= k < |ms| ==> ms[k].name != Some("h1")
    ensures IsFirstHeading(ms, Hit(1, 0))
  {
    assert Headings[0] == "h1" && Headings[1] == "h2";
  }

  lemma FragmentFirstHeading(heading: string, date: string)
    requires HeadingVersion(Heading(heading)).Some?
    ensures var walk := Descendants(FragmentMain(heading, date)); var ms := Marks(walk);
              && IsFirstHeading(ms, Hit(1, 0))
              && ms[0].version == HeadingVersion(Heading(heading))
              && walk[0].following == [DateParagraph(date)]
  {
    FragmentFirstMark(heading, date);
    FragmentHasNoH1(heading, date);
    FirstMarkIsFirstHeading(Marks(Descendants(FragmentMain(heading, date))));
  }

  lemma FragmentFirstMark(heading: string, date: string)
    requires HeadingVersion(Heading(heading)).Some?
    ensures var walk := Descendants(FragmentMain(heading, date)); var ms := Marks(walk);
              && |ms| > 0 && IsVersionHeading(ms[0], "h2")
              && ms[0].version == HeadingVersion(Heading(heading))
              && walk[0].following == [DateParagraph(date)]
  {
    FragmentWalk(heading, date);
    var walk := Descendants(FragmentMain(heading, date));
    assert Marks(walk)[0] == MarkOf(Heading(heading));
    HeadingMark(Heading(heading));
  }

  lemma FragmentHasNoH1(heading: string, date: string)
    ensures var ms := Marks(Descendants(FragmentMain(heading, date)));
            forall k :: 0 <= k < |ms| ==> ms[k].name != Some("h1")
  {
    FragmentWalk(heading, date);
    var walk := Descendants(FragmentMain(heading, date));
    assert forall k :: 0 <= k < |walk| ==> !HasName(walk[k].node, "h1");
    NoTagNoMark(walk, "h1");
  }

  /** A section made of the date paragraph alone has that date and no
      changelog. */
  lemma DateOnlySection(version: string, date: string)
    requires IsCleanDate(date)
    requires !StringOps.Contains(" " + date + ".", ReleasedPrefix)
    ensures BuildRelease(version, [DateParagraph(date)]) == Release(version, Some(date), None)
  {
    ClassifyDateParagraph(date);
    SectionOfParagraph(version, DateParagraph(date), date);
  }

  /** The section made of `p` alone takes its date from `p`. */
  lemma SectionOfParagraph(version: string, p: Node, date: string)
    requires Classify(p) == Paragraph(Some(date))
    ensures BuildRelease(version, [p]) == Release(version, Some(date), None)
  {
    ClassifiedOne(p);
    OneDateSection(date);
    ChosenDateOfOne(date);
  }

  lemma ClassifiedOne(p: Node)
    ensures Classified([p]) == [Classify(p)]
  {
  }

  lemma OneDateSection(date: string)
    ensures var sec := Section([Paragraph(Some(date))]);
              DateCandidates(sec) == [date] && ChangelogParts(sec) == []
  {
    var x := Paragraph(Some(date));
    assert [x] == [x] + [];
    SectionCons(x, []);
    assert Section([x]) == [x] + [];
    DateCandidatesCons(x, []);
    ChangelogPartsCons(x, []);
  }

  /** A version heading followed by a date paragraph yields both. */
  lemma FragmentGivesVersionAndDate(v: string, date: string)
    requires VersionPattern.IsVersionString(v)
    requires IsCleanDate(date)
    requires !StringOps.Contains(" " + date + ".", ReleasedPrefix)
    ensures ScrapeDocument(FragmentOf("Version " + v, date)) == Some(Release(v, Some(date), None))
  {
    VersionHeading(v);
    FragmentArea("Version " + v, date);
    FragmentFirstHeading("Version " + v, date);
    DateOnlySection(v, date);
  }

  /** The fragment with "Version 2.24.117" and "Released for download on
      March 3, 2024." gives version 2.24.117 released on March 3, 2024. */
  lemma MarchThirdRelease()
    ensures ScrapeDocument(FragmentOf(NewestText, "March 3, 2024"))
            == Some(Release("2.24.117", Some("March 3, 2024"), None))
  {
    var v, date := "2.24.117", "March 3, 2024";
    assert VersionPattern.IsVersionString(v);
    assert NewestText == "Version " + v;
    assert !StringOps.Contains(" " + date + ".", ReleasedPrefix) by {
      assert |" " + date + "."| < |ReleasedPrefix|;
    }
    FragmentGivesVersionAndDate(v, date);
  }

  // ---------------------------------------------------------------------
  // The 24-hour threshold
  // ---------------------------------------------------------------------

  /** A failed cycle 25 hours after the last success raises the issue. */
  lemma FailureAfter25HoursRaisesIssue(t0: int)
    ensures Coordinator.Cycle(Coordinator.Init(t0), Coordinator.CycleInput(None, None, false, t0 + 25 * 3600)).state.issueRaised
  {
  }

  /** A failed cycle 23 hours, or exactly 24 hours, after the last success
      does not. */
  lemma FailureWithinADayRaisesNothing(t0: int)
    ensures !Coordinator.Cycle(Coordinator.Init(t0), Coordinator.CycleInput(None, None, false, t0 + 23 * 3600)).state.issueRaised
    ensures !Coordinator.Cycle(Coordinator.Init(t0), Coordinator.CycleInput(None, None, false, t0 + 24 * 3600)).state.issueRaised
  {
  }
}

=== FILE: extractor.dfy ===
/** `_scrape_release_info` (coordinator.py): from a parsed release-history
    page to the newest release's version, release date and changelog. */
module Extractor {
  import opened Wrappers
  import StringOps
  import VersionPattern
  import opened Document

  /** The heading tags, in the order the scraper tries them: every `h1` of the
      search area before any `h2`, and so on down to `h4`. */
  const Headings: seq<string> := ["h1", "h2", "h3", "h4"]

  /** The phrase that marks the release-date paragraph. */
  const ReleasedMarker: string := "Released for download"

  /** The phrase removed from that paragraph to leave the date. */
  const ReleasedPrefix: string := "Released for download on"

  /** The characters `strip(" .")` trims from the date. */
  const DateTrim: set<char> := {' ', '.'}

  /** The dict the scraper returns, with keys "version", "release_date" and
      "changelog". */
  datatype Release = Release(version: string, releaseDate: Option<string>, changelog: Option<string>)

  // ---------------------------------------------------------------------
  // Heading search
  // ---------------------------------------------------------------------

  /** The version a heading announces: the pattern's group on the heading's
      `get_text(strip=True)`. */
  function HeadingVersion(n: Node): (r: Option<string>)
    ensures r.Some? ==> VersionPattern.IsVersionString(r.value)
  {
    VersionPattern.Search(GetText(n, "", true))
  }

  /** What the heading loop learns about one node of the search area: its
      tag name (None for a text node) and, for `h1` to `h4`, the version its
      text announces. */
  datatype Mark = Mark(name: Option<string>, version: Option<string>)

  /** A `tag` element whose text holds the version pattern. */
  predicate IsVersionHeading(m: Mark, tag: string) {
    m.name == Some(tag) && m.version.Some?
  }

  function MarkOf(n: Node): (m: Mark)
    ensures m.name.Some? <==> n.Elem?
    ensures m.version.Some? ==> m.name.Some? && m.name.value in Headings
    ensures m.version.Some? ==> VersionPattern.IsVersionString(m.version.value)
  {
    match n
    case Text(_) => Mark(None, None)
    case Elem(name, _, _) => Mark(Some(name), if name in Headings then HeadingVersion(n) else None)
  }

  /** A node is marked as a version heading of a searched level exactly
      when it is a tag of that level whose text holds the version pattern,
      and the mark carries that version. */
  lemma MarkOfMeaning(n: Node, l: nat)
    requires l < |Headings|
    ensures IsVersionHeading(MarkOf(n), Headings[l]) <==> HasName(n, Headings[l]) && HeadingVersion(n).Some?
    ensures IsVersionHeading(MarkOf(n), Headings[l]) ==> MarkOf(n).version == HeadingVersion(n)
  {
  }

  /** The marks of a walk, position by position. */
  function Marks(walk: seq<Visit>): (ms: seq<Mark>)
    ensures |ms| == |walk|
    ensures forall k :: 0 <= k < |walk| ==> ms[k] == MarkOf(walk[k].node)
  {
    seq(|walk|, k requires 0 <= k < |walk| => MarkOf(walk[k].node))
  }

  /** A heading found during the search: its level (an index into
      `Headings`) and its position in the walk of the search area. */
  datatype Hit = Hit(level: nat, index: nat)

  /** `h` is the heading the scraper settles on: a version heading of its
      level, with no version heading of that level earlier in document order
      and none at all of any lower-numbered level, wherever it stands. */
  ghost predicate IsFirstHeading(ms: seq<Mark>, h: Hit) {
    && h.level < |Headings| && h.index < |ms|
    && IsVersionHeading(ms[h.index], Headings[h.level])
    && (forall k :: 0 <= k < h.index ==> !IsVersionHeading(ms[k], Headings[h.level]))
    && (forall l, k :: 0 <= l < h.level && 0 <= k < |ms| ==> !IsVersionHeading(ms[k], Headings[l]))
  }

  /** No heading of any searched level holds the version pattern. */
  ghost predicate NoVersionHeading(ms: seq<Mark>) {
    forall l, k :: 0 <= l < |Headings| && 0 <= k < |ms| ==> !IsVersionHeading(ms[k], Headings[l])
  }

  /** The outer loop over the heading levels, from `level` on; the inner loop
      over `find_all(tag)` is the first matching position for that tag. */
  function FindHeadingFrom(ms: seq<Mark>, level: nat): (r: Option<Hit>)
    requires level <= |Headings|
    ensures r.Some? ==>
              && level <= r.value.level < |Headings| && r.value.index < |ms|
              && IsVersionHeading(ms[r.value.index], Headings[r.value.level])
              && (forall k :: 0 <= k < r.value.index ==> !IsVersionHeading(ms[k], Headings[r.value.level]))
              && (forall l, k :: level <= l < r.value.level && 0 <= k < |ms| ==> !IsVersionHeading(ms[k], Headings[l]))
    ensures r.None? ==>
              forall l, k :: level <= l < |Headings| && 0 <= k < |ms| ==> !IsVersionHeading(ms[k], Headings[l])
    decreases |Headings| - level
  {
    if level == |Headings| then None
    else
      var tag := Headings[level];
      match FirstIndex(ms, m => IsVersionHeading(m, tag))
      case Some(k) => Some(Hit(level, k))
      case None => FindHeadingFrom(ms, level + 1)
  }

  /** The heading search over all four levels. */
  function FindHeading(ms: seq<Mark>): (r: Option<Hit>)
    ensures r.Some? ==> IsFirstHeading(ms, r.value)
    ensures r.None? <==> NoVersionHeading(ms)
  {
    FindHeadingFrom(ms, 0)
  }

  /** Only one heading can be the first one. */
  lemma FirstHeadingIsUnique(ms: seq<Mark>, h1: Hit, h2: Hit)
    requires IsFirstHeading(ms, h1) && IsFirstHeading(ms, h2)
    ensures h1 == h2
  {
  }

  // ---------------------------------------------------------------------
  // The walk over the heading's next siblings
  // ---------------------------------------------------------------------

  /** Python truthiness of an optional string: present and non-empty. */
  predicate IsTruthy(d: Option<string>) {
    d.Some? && d.value != ""
  }

  /** `text.replace("Released for download on", "").strip(" .")`. */
  function CleanDate(text: string): (r: string)
    ensures |r| <= |text|
    ensures r == [] || (r[0] !in DateTrim && r[|r| - 1] !in DateTrim)
  {
    StringOps.StripChars(StringOps.RemoveAll(text, ReleasedPrefix), DateTrim)
  }

  /** The first occurrence of the phrase comes out and the text before it
      is kept; every later occurrence is removed from the rest the same way,
      and only then are the ends trimmed. */
  lemma CleanDateDropsPhrase(a: string, b: string)
    requires forall i :: 0 <= i < |a| ==> !StringOps.OccursAt(a + ReleasedPrefix + b, ReleasedPrefix, i)
    ensures CleanDate(a + ReleasedPrefix + b) == StringOps.StripChars(a + StringOps.RemoveAll(b, ReleasedPrefix), DateTrim)
  {
    StringOps.RemoveAllSkipsToOccurrence(a, ReleasedPrefix, b);
  }

  /** A text without the phrase is only trimmed. */
  lemma CleanDateWithoutPhrase(text: string)
    requires !StringOps.Contains(text, ReleasedPrefix)
    ensures CleanDate(text) == StringOps.StripChars(text, DateTrim)
  {
    StringOps.RemoveAllWithoutOccurrence(text, ReleasedPrefix);
  }

  /** The date a paragraph announces, when its stripped text holds the
      marker phrase. */
  function ParagraphDate(n: Node): Option<string> {
    var text := GetText(n, "", true);
    if StringOps.Contains(text, ReleasedMarker) then Some(CleanDate(text)) else None
  }

  /** What the sibling loop does with one sibling: stop at it, read a date
      from it, add it to the changelog, or pass it over. */
  datatype Sibling =
    | Break
    | Paragraph(date: Option<string>)
    | ChangelogEntry(text: string)
    | Other

  function Classify(n: Node): Sibling {
    match n
    case Text(_) => Other
    case Elem(name, _, _) =>
      if name == "h1" || name == "h2" then Break
      else if name == "p" then Paragraph(ParagraphDate(n))
      else if name == "h3" || name == "h4" || name == "ul" then ChangelogEntry(GetText(n, "\n", true))
      else Other
  }

  /** A paragraph whose stripped text holds the phrase announces that text
      with every occurrence of the phrase taken out, left to right, and the
      spaces and full stops at its ends trimmed. */
  lemma ParagraphDateMeaning(n: Node, a: string, b: string)
    requires GetText(n, "", true) == a + ReleasedPrefix + b
    requires forall i :: 0 <= i < |a| ==> !StringOps.OccursAt(a + ReleasedPrefix + b, ReleasedPrefix, i)
    ensures ParagraphDate(n) == Some(StringOps.StripChars(a + StringOps.RemoveAll(b, ReleasedPrefix), DateTrim))
  {
    PhraseHoldsMarker(a, b);
    CleanDateDropsPhrase(a, b);
  }

  lemma PhraseHoldsMarker(a: string, b: string)
    ensures StringOps.Contains(a + ReleasedPrefix + b, ReleasedMarker)
  {
    var text, m := a + ReleasedPrefix + b, |ReleasedMarker|;
    assert ReleasedPrefix == ReleasedMarker + " on";
    assert text[|a|..|a| + m] == ReleasedPrefix[..m] == ReleasedMarker;
    assert StringOps.OccursAt(text, ReleasedMarker, |a|);
  }

  /** The four kinds of sibling, by tag: `h1` and `h2` stop the walk, `p`
      may carry the date, `h3`, `h4` and `ul` go to the changelog with their
      newline-joined text, everything else is passed over. */
  lemma ClassifyMeaning(n: Node)
    ensures Classify(n).Break? <==> HasName(n, "h1") || HasName(n, "h2")
    ensures Classify(n).Paragraph? <==> HasName(n, "p")
    ensures Classify(n).ChangelogEntry? <==> HasName(n, "h3") || HasName(n, "h4") || HasName(n, "ul")
    ensures Classify(n).Other? <==> !HasName(n, "h1") && !HasName(n, "h2") && !HasName(n, "p")
                                    && !HasName(n, "h3") && !HasName(n, "h4") && !HasName(n, "ul")
    ensures Classify(n).Paragraph? ==> Classify(n).date == ParagraphDate(n)
    ensures Classify(n).ChangelogEntry? ==> Classify(n).text == GetText(n, "\n", true)
  {
  }

  /** The siblings, classified one by one. */
  function Classified(siblings: seq<Node>): (r: seq<Sibling>)
    ensures |r| == |siblings|
    ensures forall k :: 0 <= k < |siblings| ==> r[k] == Classify(siblings[k])
  {
    seq(|siblings|, k requires 0 <= k < |siblings| => Classify(siblings[k]))
  }

  lemma ClassifiedAppend(a: seq<Node>, b: seq<Node>)
    ensures Classified(a + b) == Classified(a) + Classified(b)
  {
    var l, r := Classified(a + b), Classified(a) + Classified(b);
    forall k | 0 <= k < |l|
      ensures l[k] == r[k]
    {
      if k < |a| {
        assert (a + b)[k] == a[k];
      } else {
        assert (a + b)[k] == b[k - |a|];
      }
    }
  }

  /** The two locals the sibling loop updates. */
  datatype Harvest = Harvest(releaseDate: Option<string>, changelogParts: seq<string>)

  /** The loop over `tag.next_siblings`, one sibling per call: stop at `h1`
      or `h2`; a `p` sets the date only while the date is still falsy; an
      `h3`, `h4` or `ul` appends its line-separated text; anything else,
      text nodes included, is passed over. */
  function CollectSiblings(siblings: seq<Sibling>, acc: Harvest): (r: Harvest)
    ensures acc.changelogParts <= r.changelogParts
    ensures IsTruthy(acc.releaseDate) ==> r.releaseDate == acc.releaseDate
    ensures r.releaseDate != acc.releaseDate ==> Paragraph(r.releaseDate) in siblings
    decreases |siblings|
  {
    if siblings == [] then acc
    else match siblings[0]
      case Break => acc
      case Paragraph(d) =>
        var date := if !IsTruthy(acc.releaseDate) && d.Some? then d else acc.releaseDate;
        CollectSiblings(siblings[1..], Harvest(date, acc.changelogParts))
      case ChangelogEntry(text) =>
        CollectSiblings(siblings[1..], Harvest(acc.releaseDate, acc.changelogParts + [text]))
      case Other =>
        CollectSiblings(siblings[1..], acc)
  }

  /** The current release's section: the siblings before the first `h1` or
      `h2` sibling. */
  function Section(siblings: seq<Sibling>): (r: seq<Sibling>)
    ensures r <= siblings
    ensures forall k :: 0 <= k < |r| ==> !r[k].Break?
    ensures |r| < |siblings| ==> siblings[|r|].Break?
  {
    if siblings == [] || siblings[0].Break? then []
    else [siblings[0]] + Section(siblings[1..])
  }

  /** The dates the paragraphs of a section announce, in order. */
  function DateCandidates(section: seq<Sibling>): seq<string> {
    if section == [] then []
    else
      (if section[0].Paragraph? && section[0].date.Some? then [section[0].date.value] else [])
      + DateCandidates(section[1..])
  }

  /** The changelog texts of a section, in order. */
  function ChangelogParts(section: seq<Sibling>): seq<string> {
    if section == [] then []
    else
      (if section[0].ChangelogEntry? then [section[0].text] else [])
      + ChangelogParts(section[1..])
  }

  /** The index of the first non-empty text. */
  function FirstNonEmpty(texts: seq<string>): (r: Option<nat>)
    ensures r.Some? ==> r.value < |texts| && texts[r.value] != ""
                        && forall j :: 0 <= j < r.value ==> texts[j] == ""
    ensures r.None? ==> forall j :: 0 <= j < |texts| ==> texts[j] == ""
  {
    if texts == [] then None
    else if texts[0] != "" then Some(0)
    else match FirstNonEmpty(texts[1..])
      case Some(k) => Some(k + 1)
      case None => None
  }

  /** The date the sibling loop ends with, stated on the candidates: none
      when there are none; otherwise the first non-empty one, or "" when all
      are empty (an empty date is falsy and does not block later ones). */
  function ChosenDate(candidates: seq<string>): (r: Option<string>)
    ensures r.None? <==> candidates == []
    ensures r.Some? && r.value != "" ==>
              exists k :: 0 <= k < |candidates| && candidates[k] == r.value
                          && forall j :: 0 <= j < k ==> candidates[j] == ""
    ensures r == Some("") ==> forall k :: 0 <= k < |candidates| ==> candidates[k] == ""
  {
    if candidates == [] then None
    else match FirstNonEmpty(candidates)
      case Some(k) => Some(candidates[k])
      case None => Some("")
  }

  /** A section yields no date candidate exactly when none of its
      paragraphs announces a date. */
  lemma {:induction false} DateCandidatesEmpty(section: seq<Sibling>)
    ensures DateCandidates(section) == [] <==>
              forall k :: 0 <= k < |section| ==> !(section[k].Paragraph? && section[k].date.Some?)
  {
    if section != [] {
      DateCandidatesEmpty(section[1..]);
      assert forall k :: 1 <= k < |section| ==> section[k] == section[1..][k - 1];
    }
  }

  /** A section yields no changelog part exactly when it holds no `h3`,
      `h4` or `ul`. */
  lemma {:induction false} ChangelogPartsEmpty(section: seq<Sibling>)
    ensures ChangelogParts(section) == [] <==> forall k :: 0 <= k < |section| ==> !section[k].ChangelogEntry?
  {
    if section != [] {
      ChangelogPartsEmpty(section[1..]);
      assert forall k :: 1 <= k < |section| ==> section[k] == section[1..][k - 1];
    }
  }

  /** What the loop keeps when it starts with date `d` and meets
      `candidates`. */
  function MergeDate(d: Option<string>, candidates: seq<string>): Option<string> {
    if IsTruthy(d) || candidates == [] then d else ChosenDate(candidates)
  }

  /** After a falsy date, the first candidate and the rest decide the same
      as all candidates together. */
  lemma MergeDateStep(c: string, rest: seq<string>)
    ensures MergeDate(Some(c), rest) == ChosenDate([c] + rest)
  {
    var all := [c] + rest;
    assert all[1..] == rest;
    if c == "" {
      match FirstNonEmpty(rest)
      case Some(k) =>
        assert FirstNonEmpty(all) == Some(k + 1);
      case None =>
        assert FirstNonEmpty(all) == None;
    }
  }

  /** The sibling loop computes the section-based reference definitions. */
  lemma {:induction false} CollectSiblingsMeetsSection(siblings: seq<Sibling>, acc: Harvest)
    ensures CollectSiblings(siblings, acc) ==
              Harvest(MergeDate(acc.releaseDate, DateCandidates(Section(siblings))),
                      acc.changelogParts + ChangelogParts(Section(siblings)))
  {
    var sec := Section(siblings);
    if siblings == [] || siblings[0].Break? {
      assert sec == [];
      assert acc.changelogParts + [] == acc.changelogParts;
    } else {
      var x := siblings[0];
      var rest := Section(siblings[1..]);
      assert sec == [x] + rest;
      assert sec[1..] == rest;
      match x
      case Paragraph(d) =>
        var date := if !IsTruthy(acc.releaseDate) && d.Some? then d else acc.releaseDate;
        CollectSiblingsMeetsSection(siblings[1..], Harvest(date, acc.changelogParts));
        assert DateCandidates(sec) == (if d.Some? then [d.value] else []) + DateCandidates(rest);
        assert ChangelogParts(sec) == ChangelogParts(rest);
        if !IsTruthy(acc.releaseDate) && d.Some? {
          MergeDateStep(d.value, DateCandidates(rest));
        } else if d.None? {
          assert DateCandidates(sec) == DateCandidates(rest);
        }
      case ChangelogEntry(text) =>
        CollectSiblingsMeetsSection(siblings[1..], Harvest(acc.releaseDate, acc.changelogParts + [text]));
        assert acc.changelogParts + [text] + ChangelogParts(rest) == acc.changelogParts + ChangelogParts(sec);
        assert DateCandidates(sec) == DateCandidates(rest);
      case Other =>
        CollectSiblingsMeetsSection(siblings[1..], acc);
        assert DateCandidates(sec) == DateCandidates(rest);
        assert ChangelogParts(sec) == ChangelogParts(rest);
    }
  }

  /** The record built once a heading matched, from the heading's version and
      its next siblings. */
  function BuildRelease(version: string, siblings: seq<Node>): (r: Release)
    ensures r.version == version
    ensures r.releaseDate == ChosenDate(DateCandidates(Section(Classified(siblings))))
    ensures r.changelog.None? <==> ChangelogParts(Section(Classified(siblings))) == []
    ensures r.changelog.Some? ==>
              r.changelog.value == StringOps.Strip(StringOps.Join("\n", ChangelogParts(Section(Classified(siblings)))))
  {
    var cs := Classified(siblings);
    var h := CollectSiblings(cs, Harvest(None, []));
    CollectSiblingsMeetsSection(cs, Harvest(None, []));
    assert [] + ChangelogParts(Section(cs)) == ChangelogParts(Section(cs));
    Release(
      version,
      h.releaseDate,
      if h.changelogParts == [] then None
      else Some(StringOps.Strip(StringOps.Join("\n", h.changelogParts))))
  }

  // ---------------------------------------------------------------------
  // Properties of the sibling walk
  // ---------------------------------------------------------------------

  /** A sibling the loop reads a date from: a `p` whose stripped text holds
      the marker. */
  predicate AnnouncesDate(n: Node) {
    HasName(n, "p") && StringOps.Contains(GetText(n, "", true), ReleasedMarker)
  }

  lemma AnnouncesDateMeaning(n: Node)
    ensures Classify(n).Paragraph? && Classify(n).date.Some? <==> AnnouncesDate(n)
  {
    ClassifyMeaning(n);
  }

  /** The record has no date exactly when no `p` before the first `h1` or
      `h2` sibling holds the marker. */
  lemma NoDateWithoutMarker(version: string, siblings: seq<Node>)
    ensures var m := |Section(Classified(siblings))|;
              m <= |siblings| &&
              (BuildRelease(version, siblings).releaseDate.None? <==>
                 forall k :: 0 <= k < m ==> !AnnouncesDate(siblings[k]))
  {
    var cs := Classified(siblings);
    var sec := Section(cs);
    DateCandidatesEmpty(sec);
    forall k | 0 <= k < |sec|
      ensures sec[k].Paragraph? && sec[k].date.Some? <==> AnnouncesDate(siblings[k])
    {
      assert sec[k] == cs[k] == Classify(siblings[k]);
      AnnouncesDateMeaning(siblings[k]);
    }
  }

  /** A section ends inside `a` exactly when `a` holds a break; otherwise
      it runs on into `b`. */
  lemma {:induction false} SectionAppend(a: seq<Sibling>, b: seq<Sibling>)
    ensures Section(a) == a ==> Section(a + b) == a + Section(b)
    ensures Section(a) != a ==> Section(a + b) == Section(a)
  {
    if a == [] {
      assert a + b == b;
    } else {
      assert (a + b)[0] == a[0];
      assert (a + b)[1..] == a[1..] + b;
      SectionAppend(a[1..], b);
      if !a[0].Break? {
        assert Section(a) == [a[0]] + Section(a[1..]);
        assert Section(a) == a <==> Section(a[1..]) == a[1..];
      }
    }
  }

  lemma {:induction false} DateCandidatesAppend(a: seq<Sibling>, b: seq<Sibling>)
    ensures DateCandidates(a + b) == DateCandidates(a) + DateCandidates(b)
  {
    if a == [] {
      assert a + b == b;
    } else {
      assert (a + b)[0] == a[0];
      assert (a + b)[1..] == a[1..] + b;
      DateCandidatesAppend(a[1..], b);
    }
  }

  lemma {:induction false} ChangelogPartsAppend(a: seq<Sibling>, b: seq<Sibling>)
    ensures ChangelogParts(a + b) == ChangelogParts(a) + ChangelogParts(b)
  {
    if a == [] {
      assert a + b == b;
    } else {
      assert (a + b)[0] == a[0];
      assert (a + b)[1..] == a[1..] + b;
      ChangelogPartsAppend(a[1..], b);
    }
  }

  /** The walk is scoped to the current release: whatever follows the first
      `h1` or `h2` sibling changes neither the date nor the changelog. */
  lemma SiblingsAfterBreakIgnored(version: string, before: seq<Node>, stop: Node, after1: seq<Node>, after2: seq<Node>)
    requires HasName(stop, "h1") || HasName(stop, "h2")
    ensures BuildRelease(version, before + [stop] + after1) == BuildRelease(version, before + [stop] + after2)
  {
    var p := Classified(before + [stop]);
    assert p[|before|].Break?;
    assert Section(p) != p;
    ClassifiedAppend(before + [stop], after1);
    ClassifiedAppend(before + [stop], after2);
    SectionAppend(p, Classified(after1));
    SectionAppend(p, Classified(after2));
  }

  lemma SectionCons(x: Sibling, s: seq<Sibling>)
    ensures Section([x] + s) == if x.Break? then [] else [x] + Section(s)
  {
    assert ([x] + s)[1..] == s;
  }

  lemma DateCandidatesCons(x: Sibling, s: seq<Sibling>)
    ensures DateCandidates([x] + s) ==
              (if x.Paragraph? && x.date.Some? then [x.date.value] else []) + DateCandidates(s)
  {
    assert ([x] + s)[1..] == s;
  }

  lemma ChangelogPartsCons(x: Sibling, s: seq<Sibling>)
    ensures ChangelogParts([x] + s) == (if x.ChangelogEntry? then [x.text] else []) + ChangelogParts(s)
  {
    assert ([x] + s)[1..] == s;
  }

  /** A sibling the loop passes over drops out of the section's dates and
      changelog. */
  lemma {:induction false} OtherDropsOut(b: seq<Sibling>, a: seq<Sibling>)
    ensures DateCandidates(Section(b + ([Other] + a))) == DateCandidates(Section(b + a))
    ensures ChangelogParts(Section(b + ([Other] + a))) == ChangelogParts(Section(b + a))
  {
    if b == [] {
      assert b + ([Other] + a) == [Other] + a;
      assert b + a == a;
      SectionCons(Other, a);
      DateCandidatesCons(Other, Section(a));
      ChangelogPartsCons(Other, Section(a));
      assert [] + DateCandidates(Section(a)) == DateCandidates(Section(a));
      assert [] + ChangelogParts(Section(a)) == ChangelogParts(Section(a));
    } else {
      var x, rest := b[0], b[1..];
      assert b + ([Other] + a) == [x] + (rest + ([Other] + a));
      assert b + a == [x] + (rest + a);
      SectionCons(x, rest + ([Other] + a));
      SectionCons(x, rest + a);
      if !x.Break? {
        OtherDropsOut(rest, a);
        DateCandidatesCons(x, Section(rest + ([Other] + a)));
        DateCandidatesCons(x, Section(rest + a));
        ChangelogPartsCons(x, Section(rest + ([Other] + a)));
        ChangelogPartsCons(x, Section(rest + a));
      }
    }
  }

  /** Text nodes and tags other than `p`, `h1` to `h4` and `ul` are passed
      over: removing one from the siblings changes nothing. */
  lemma IgnoredSiblingChangesNothing(version: string, before: seq<Node>, x: Node, after: seq<Node>)
    requires x.Text? || x.name !in {"h1", "h2", "h3", "h4", "ul", "p"}
    ensures BuildRelease(version, before + [x] + after) == BuildRelease(version, before + after)
  {
    var b, a := Classified(before), Classified(after);
    assert Classify(x) == Other;
    ClassifiedAppend(before + [x], after);
    ClassifiedAppend(before, [x]);
    ClassifiedAppend(before, after);
    assert Classified(before + [x] + after) == b + ([Other] + a);
    OtherDropsOut(b, a);
  }

  // ---------------------------------------------------------------------
  // The whole extraction
  // ---------------------------------------------------------------------

  /** `_scrape_release_info` after the page has been fetched and parsed. */
  function ScrapeDocument(doc: Node): (r: Option<Release>)
    ensures r.Some? ==> VersionPattern.IsVersionString(r.value.version)
    ensures var walk := Descendants(SearchArea(doc)); var ms := Marks(walk);
              forall h :: IsFirstHeading(ms, h) ==>
                r == Some(BuildRelease(ms[h.index].version.value, walk[h.index].following))
    ensures var area := SearchArea(doc); var text := GetText(area, "", false);
              NoVersionHeading(Marks(Descendants(area))) ==>
                && (r.Some? <==> exists m :: VersionPattern.IsMatch(text, m))
                && (r.Some? ==> r.value == Release(VersionPattern.Search(text).value, None, None))
    ensures var area := SearchArea(doc);
              r.None? <==> NoVersionHeading(Marks(Descendants(area)))
                           && forall m :: !VersionPattern.IsMatch(GetText(area, "", false), m)
  {
    var area := SearchArea(doc);
    var walk := Descendants(area);
    var ms := Marks(walk);
    match FindHeading(ms)
    case Some(h) =>
      assert forall h' :: IsFirstHeading(ms, h') ==> h' == h by {
        forall h' | IsFirstHeading(ms, h') ensures h' == h {
          FirstHeadingIsUnique(ms, h, h');
        }
      }
      Some(BuildRelease(ms[h.index].version.value, walk[h.index].following))
    case None =>
      match VersionPattern.Search(GetText(area, "", false))
      case Some(version) => Some(Release(version, None, None))
      case None => None
  }

  /** `_scrape_release_info(url)`: `page` is the parsed page, or None when
      the fetch raised (connection error or non-success status). */
  function ScrapeReleaseInfo(page: Option<Node>): (r: Option<Release>)
    ensures page.None? ==> r.None?
    ensures page.Some? ==> r == ScrapeDocument(page.value)
    ensures r.Some? ==> VersionPattern.IsVersionString(r.value.version)
  {
    match page
    case None => None
    case Some(doc) => ScrapeDocument(doc)
  }
}

=== FILE: sensor.dfy ===
/** The sensor entity (sensor.py): one per platform, reading the
    coordinator's shared result. Every property is a pure function of the
    platform the sensor was created for and of what the coordinator holds. */
module Sensor {
  import opened Wrappers
  import opened Extractor
  import Coordinator

  const WindowsUrl: string := "https://learn.microsoft.com/en-us/entra/global-secure-access/reference-windows-client-release-history"
  const MacosUrl: string := "https://learn.microsoft.com/en-us/entra/global-secure-access/reference-macos-client-release-history"

  const UniqueIdPrefix: string := "gsa_latest_version_"
  const WindowsIcon: string := "mdi:microsoft-windows"
  const MacosIcon: string := "mdi:apple"

  /** The attribute keys the sensor can expose. */
  const ProvidedByKey: string := "data_provided_by"
  const ReleaseDayKey: string := "release_day"
  const ChangelogKey: string := "changelog"

  /** The entity's unique id: the prefix followed by the platform, so the
      platform can be read back from it. */
  function UniqueId(platform: string): (r: string)
    ensures |r| == |UniqueIdPrefix| + |platform|
    ensures r[..|UniqueIdPrefix|] == UniqueIdPrefix
    ensures r[|UniqueIdPrefix|..] == platform
  {
    UniqueIdPrefix + platform
  }

  /** Two sensors have the same unique id only when they are for the same
      platform, so the Windows and macOS sensors never clash. */
  lemma UniqueIdIsInjective(p1: string, p2: string)
    requires UniqueId(p1) == UniqueId(p2)
    ensures p1 == p2
  {
    assert p1 == UniqueId(p1)[|UniqueIdPrefix|..];
  }

  /** The icon: the Windows logo for "windows", the Apple logo for every
      other platform. */
  function Icon(platform: string): (r: string)
    ensures r == WindowsIcon <==> platform == "windows"
    ensures r == MacosIcon <==> platform != "windows"
  {
    if platform == "windows" then WindowsIcon else MacosIcon
  }

  /** `coordinator.data and coordinator.data.get(platform)`: the release the
      coordinator holds for the platform. A release record is never empty,
      so it is always truthy, and an empty result holds no platform. */
  function PlatformData(data: Option<map<string, Release>>, platform: string): (r: Option<Release>)
    ensures r.Some? <==> data.Some? && platform in data.value
    ensures r.Some? ==> r.value == data.value[platform]
  {
    if data.Some? && platform in data.value then Some(data.value[platform]) else None
  }

  /** The sensor's state: the platform's version, or None when there is no
      data for the platform. */
  function State(data: Option<map<string, Release>>, platform: string): (r: Option<string>)
    ensures r.Some? <==> data.Some? && platform in data.value
    ensures r.Some? ==> r.value == data.value[platform].version
  {
    match PlatformData(data, platform)
    case Some(release) => Some(release.version)
    case None => None
  }

  /** The extra state attributes. The page the data comes from is always
      there; the release day and the changelog are added only when the
      platform has data and the value is a non-empty string. Nothing else is
      ever exposed. */
  function Attributes(data: Option<map<string, Release>>, platform: string): (r: map<string, string>)
    ensures ProvidedByKey in r
    ensures r[ProvidedByKey] == WindowsUrl <==> platform == "windows"
    ensures r[ProvidedByKey] == MacosUrl <==> platform != "windows"
    ensures r.Keys <= {ProvidedByKey, ReleaseDayKey, ChangelogKey}
    ensures ReleaseDayKey in r <==>
              data.Some? && platform in data.value && IsTruthy(data.value[platform].releaseDate)
    ensures ReleaseDayKey in r ==> r[ReleaseDayKey] == data.value[platform].releaseDate.value
    ensures ChangelogKey in r <==>
              data.Some? && platform in data.value && IsTruthy(data.value[platform].changelog)
    ensures ChangelogKey in r ==> r[ChangelogKey] == data.value[platform].changelog.value
  {
    var url := if platform == "windows" then WindowsUrl else MacosUrl;
    var base := map[ProvidedByKey := url];
    match PlatformData(data, platform)
    case None => base
    case Some(release) =>
      var withDay := if IsTruthy(release.releaseDate) then base[ReleaseDayKey := release.releaseDate.value] else base;
      if IsTruthy(release.changelog) then withDay[ChangelogKey := release.changelog.value] else withDay
  }

  /** `available`: the last refresh succeeded and there is data. */
  function Available(lastUpdateSuccess: bool, data: Option<map<string, Release>>): bool {
    lastUpdateSuccess && data.Some?
  }

  /** After a cycle, with the framework's `last_update_success` set from
      its outcome, a sensor is available exactly when the cycle succeeded. */
  lemma AvailableAfterCycle(s: Coordinator.State, i: Coordinator.CycleInput)
    ensures var step := Coordinator.Cycle(s, i);
              Available(step.outcome.Refreshed?, step.state.data) <==> Coordinator.Succeeds(i)
  {
  }

  /** A successful cycle makes the Windows and macOS sensors show the
      versions just scraped, and a sensor for any other platform show
      nothing; a failed cycle leaves what every sensor shows unchanged. */
  lemma SensorsFollowCycle(s: Coordinator.State, i: Coordinator.CycleInput, platform: string)
    ensures var step := Coordinator.Cycle(s, i);
              Coordinator.Succeeds(i) ==>
                && State(step.state.data, "windows") == Some(i.windows.value.version)
                && State(step.state.data, "macos") == Some(i.macos.value.version)
                && (platform != "windows" && platform != "macos" ==> State(step.state.data, platform).None?)
    ensures var step := Coordinator.Cycle(s, i);
              !Coordinator.Succeeds(i) ==>
                && State(step.state.data, platform) == State(s.data, platform)
                && Attributes(step.state.data, platform) == Attributes(s.data, platform)
  {
  }
}

=== FILE: string_ops.dfy ===
/** The few Python `str` operations the scraper relies on: `strip`, `join`,
    `replace` with an empty replacement, the substring test `in`, and the
    ASCII part of case folding. */
module StringOps {

  /** The characters Python's `str.isspace()` accepts: the ASCII separators
      and control spaces plus the Unicode space characters. Both `str.strip()`
      and the regular-expression class `\s` use this set. */
  const Whitespace: set<char> := {
    '\t', '\n', '\U{000B}', '\U{000C}', '\r',
    '\U{001C}', '\U{001D}', '\U{001E}', '\U{001F}', ' ',
    '\U{0085}', '\U{00A0}', '\U{1680}',
    '\U{2000}', '\U{2001}', '\U{2002}', '\U{2003}', '\U{2004}', '\U{2005}',
    '\U{2006}', '\U{2007}', '\U{2008}', '\U{2009}', '\U{200A}',
    '\U{2028}', '\U{2029}', '\U{202F}', '\U{205F}', '\U{3000}'
  }

  predicate IsSpace(c: char) {
    c in Whitespace
  }

  /** ASCII lower-casing; every other character is left as it is. */
  function Lower(c: char): char {
    if 'A' <= c <= 'Z' then (c as int + 32) as char else c
  }

  /** Lower-casing leaves no upper-case letter, changes exactly the
      upper-case letters, and maps letters to letters. */
  lemma LowerFoldsCase(c: char)
    ensures !('A' <= Lower(c) <= 'Z')
    ensures Lower(c) == c <==> !('A' <= c <= 'Z')
    ensures 'a' <= Lower(c) <= 'z' <==> 'a' <= c <= 'z' || 'A' <= c <= 'Z'
  {
  }

  /** `s.lstrip(chars)`: drops the longest prefix made of characters in `cs`. */
  function TrimLeft(s: string, cs: set<char>): (r: string)
    ensures |r| <= |s| && r == s[|s| - |r|..]
    ensures forall i :: 0 <= i < |s| - |r| ==> s[i] in cs
    ensures r == [] || r[0] !in cs
  {
    if s != [] && s[0] in cs then TrimLeft(s[1..], cs) else s
  }

  /** `s.rstrip(chars)`: drops the longest suffix made of characters in `cs`. */
  function TrimRight(s: string, cs: set<char>): (r: string)
    ensures |r| <= |s| && r == s[..|r|]
    ensures forall i :: |r| <= i < |s| ==> s[i] in cs
    ensures r == [] || r[|r| - 1] !in cs
  {
    if s != [] && s[|s| - 1] in cs then TrimRight(s[..|s| - 1], cs) else s
  }

  /** `s.strip(chars)`: the middle of `s` left after both ends lose their
      characters from `cs`. */
  function StripChars(s: string, cs: set<char>): (r: string)
    ensures r == [] || (r[0] !in cs && r[|r| - 1] !in cs)
    ensures var a := |s| - |TrimLeft(s, cs)|;
              a + |r| <= |s| && r == s[a..a + |r|]
              && (forall i :: 0 <= i < a ==> s[i] in cs)
              && (forall i :: a + |r| <= i < |s| ==> s[i] in cs)
  {
    var l := TrimLeft(s, cs);
    var r := TrimRight(l, cs);
    SliceOfSuffix(s, l, r, cs);
    r
  }

  /** A prefix `r` of a suffix `l` of `s` is a slice of `s`, and what `l`
      has after `r` is what `s` has after it. */
  lemma SliceOfSuffix(s: string, l: string, r: string, cs: set<char>)
    requires |l| <= |s| && l == s[|s| - |l|..]
    requires |r| <= |l| && r == l[..|r|]
    requires forall i :: |r| <= i < |l| ==> l[i] in cs
    ensures var a := |s| - |l|;
              a + |r| <= |s| && r == s[a..a + |r|]
              && (forall i :: a + |r| <= i < |s| ==> s[i] in cs)
  {
    var a := |s| - |l|;
    forall i | a + |r| <= i < |s|
      ensures s[i] in cs
    {
      assert s[i] == l[i - a];
    }
  }

  /** `s` is empty or made of white space only. */
  predicate IsBlank(s: string) {
    forall k :: 0 <= k < |s| ==> IsSpace(s[k])
  }

  /** `s.strip()` with no argument. */
  function Strip(s: string): (r: string)
    ensures r == [] || (!IsSpace(r[0]) && !IsSpace(r[|r| - 1]))
    ensures r == [] <==> IsBlank(s)
    ensures |r| <= |s|
  {
    var r := StripChars(s, Whitespace);
    assert r != [] ==> !IsBlank(s) by {
      if r != [] {
        var a := |s| - |TrimLeft(s, Whitespace)|;
        assert s[a] == r[0];
      }
    }
    r
  }

  /** A text with no white space at either end is left alone by `strip()`. */
  lemma StripKeepsTrimmedText(s: string)
    requires s == [] || (!IsSpace(s[0]) && !IsSpace(s[|s| - 1]))
    ensures Strip(s) == s
  {
    assert TrimLeft(s, Whitespace) == s;
    assert TrimRight(s, Whitespace) == s;
  }

  /** Stripping twice is stripping once. */
  lemma StripCharsIdempotent(s: string, cs: set<char>)
    ensures StripChars(StripChars(s, cs), cs) == StripChars(s, cs)
  {
    var r := StripChars(s, cs);
    assert TrimLeft(r, cs) == r;
    assert TrimRight(r, cs) == r;
  }

  /** The total length of a sequence of strings. */
  function TotalLength(parts: seq<string>): nat {
    if parts == [] then 0 else |parts[0]| + TotalLength(parts[1..])
  }

  /** `sep.join(parts)`. */
  function Join(sep: string, parts: seq<string>): (r: string)
    ensures |parts| == 0 ==> r == ""
    ensures |parts| > 0 ==> |r| == TotalLength(parts) + (|parts| - 1) * |sep|
    ensures |parts| > 0 ==> parts[0] <= r
  {
    if |parts| == 0 then ""
    else if |parts| == 1 then parts[0]
    else parts[0] + sep + Join(sep, parts[1..])
  }

  /** Joining two lists of parts puts one separator between their joins, so
      `sep` stands between every two consecutive parts. */
  lemma {:induction false} JoinAppend(sep: string, a: seq<string>, b: seq<string>)
    requires a != [] && b != []
    ensures Join(sep, a + b) == Join(sep, a) + sep + Join(sep, b)
    decreases |a|
  {
    if |a| == 1 {
      assert (a + b)[0] == a[0] && (a + b)[1..] == b;
    } else {
      assert (a + b)[0] == a[0] && (a + b)[1..] == a[1..] + b;
      JoinAppend(sep, a[1..], b);
    }
  }

  /** Joining adds separators only between parts, so the joined text starts
      with the first part's text and ends with the last part's. */
  lemma {:induction false} JoinEndsWithLast(sep: string, parts: seq<string>)
    requires |parts| > 0
    ensures var r := Join(sep, parts);
              |parts[|parts| - 1]| <= |r| && r[|r| - |parts[|parts| - 1]|..] == parts[|parts| - 1]
  {
    if |parts| > 1 {
      JoinEndsWithLast(sep, parts[1..]);
      assert parts[1..][|parts| - 2] == parts[|parts| - 1];
    }
  }

  /** `sub` occurs in `s` starting at index `i`. */
  predicate OccursAt(s: string, sub: string, i: int) {
    0 <= i && i + |sub| <= |s| && s[i..i + |sub|] == sub
  }

  /** Python's `sub in s` for strings. */
  predicate Contains(s: string, sub: string) {
    exists i | 0 <= i <= |s| - |sub| :: OccursAt(s, sub, i)
  }

  /** `s.replace(pat, "")`: scans left to right and removes every
      non-overlapping occurrence of `pat`. Text created by a removal is not
      scanned again. */
  function RemoveAll(s: string, pat: string): (r: string)
    ensures |r| <= |s|
    decreases |s|
  {
    if |pat| == 0 || |s| < |pat| then s
    else if s[..|pat|] == pat then RemoveAll(s[|pat|..], pat)
    else [s[0]] + RemoveAll(s[1..], pat)
  }

  /** A text in which `pat` does not occur comes back unchanged. */
  lemma {:induction false} RemoveAllWithoutOccurrence(s: string, pat: string)
    requires !Contains(s, pat)
    ensures RemoveAll(s, pat) == s
    decreases |s|
  {
    if |pat| == 0 || |s| < |pat| {
    } else {
      assert !OccursAt(s, pat, 0);
      assert !Contains(s[1..], pat) by {
        if Contains(s[1..], pat) {
          var i :| 0 <= i <= |s[1..]| - |pat| && OccursAt(s[1..], pat, i);
          assert s[i + 1..i + 1 + |pat|] == s[1..][i..i + |pat|];
          assert OccursAt(s, pat, i + 1);
        }
      }
      RemoveAllWithoutOccurrence(s[1..], pat);
      assert [s[0]] + s[1..] == s;
    }
  }

  /** `replace` removes the first occurrence of `pat` and keeps the text
      before it: when `pat` does not occur anywhere before `|a|`, removing
      from `a + pat + b` gives `a` followed by the removal from `b`. */
  lemma RemoveAllSkipsToOccurrence(a: string, pat: string, b: string)
    requires pat != []
    requires forall i :: 0 <= i < |a| ==> !OccursAt(a + pat + b, pat, i)
    ensures RemoveAll(a + pat + b, pat) == a + RemoveAll(b, pat)
  {
    var s := a + pat + b;
    assert s[..|a|] == a && s[|a| + |pat|..] == b;
    assert OccursAt(s, pat, |a|) by {
      assert s[|a|..|a| + |pat|] == pat;
    }
    RemoveAllUpTo(s, pat, |a|);
  }

  /** The same, on one text: up to the first occurrence at `k` the text is
      kept, the occurrence goes, and the removal goes on after it. */
  lemma {:induction false} RemoveAllUpTo(s: string, pat: string, k: nat)
    requires pat != [] && OccursAt(s, pat, k)
    requires forall i :: 0 <= i < k ==> !OccursAt(s, pat, i)
    ensures RemoveAll(s, pat) == s[..k] + RemoveAll(s[k + |pat|..], pat)
    decreases k
  {
    if k == 0 {
      RemoveAllAtStart(s, pat);
    } else {
      var t := s[1..];
      ShiftedOccurrence(s, pat, k);
      RemoveAllUpTo(t, pat, k - 1);
      RemoveAllKeepsFirst(s, pat);
      KeptPrefixGrows(s, k, RemoveAll(s, pat), RemoveAll(t, pat), RemoveAll(s[k + |pat|..], pat));
    }
  }

  lemma RemoveAllAtStart(s: string, pat: string)
    requires pat != [] && OccursAt(s, pat, 0)
    ensures RemoveAll(s, pat) == s[..0] + RemoveAll(s[|pat|..], pat)
  {
    assert s[..|pat|] == pat;
    assert s[..0] + RemoveAll(s[|pat|..], pat) == RemoveAll(s[|pat|..], pat);
  }

  /** Dropping the first character moves every occurrence one to the left. */
  lemma ShiftedOccurrence(s: string, pat: string, k: nat)
    requires k > 0 && OccursAt(s, pat, k)
    requires forall i :: 0 <= i < k ==> !OccursAt(s, pat, i)
    ensures OccursAt(s[1..], pat, k - 1)
    ensures forall i :: 0 <= i < k - 1 ==> !OccursAt(s[1..], pat, i)
    ensures s[1..][k - 1 + |pat|..] == s[k + |pat|..]
  {
    var t := s[1..];
    forall i | 0 <= i < k - 1
      ensures !OccursAt(t, pat, i)
    {
      assert !OccursAt(s, pat, i + 1);
    }
    assert t[k - 1..k - 1 + |pat|] == s[k..k + |pat|];
  }

  lemma KeptPrefixGrows(s: string, k: nat, rs: string, rt: string, rest: string)
    requires 0 < k <= |s|
    requires rs == [s[0]] + rt && rt == s[1..][..k - 1] + rest
    ensures rs == s[..k] + rest
  {
    assert s[..k] == [s[0]] + s[1..][..k - 1];
  }

  lemma RemoveAllAtOccurrence(pat: string, b: string)
    requires pat != []
    ensures RemoveAll(pat + b, pat) == RemoveAll(b, pat)
  {
    var s := pat + b;
    assert s[..|pat|] == pat;
    assert s[|pat|..] == b;
  }

  lemma RemoveAllKeepsFirst(s: string, pat: string)
    requires pat != [] && |pat| <= |s| && !OccursAt(s, pat, 0)
    ensures RemoveAll(s, pat) == [s[0]] + RemoveAll(s[1..], pat)
  {
  }

}

=== FILE: version_pattern.dfy ===
/** The version pattern `(?i)Version[:\s]*([\d\.]+)` and Python's `re.search`
    with it, written as a plain leftmost scan.

    The two character classes `[:\s]` and `[\d.]` share no character, so the
    greedy run of separators can never give a character back to the group:
    at each start position the pattern has at most one match, and the group
    is the maximal run of digits and dots that follows the separators. */
module VersionPattern {
  import opened Wrappers
  import StringOps

  /** The literal of the pattern, lower-cased; matched ignoring ASCII case. */
  const Keyword: string := "version"

  /** The class `[\d\.]` (ASCII digits). */
  predicate IsDigitOrDot(c: char) {
    '0' <= c <= '9' || c == '.'
  }

  /** The class `[:\s]`. */
  predicate IsSeparator(c: char) {
    c == ':' || StringOps.IsSpace(c)
  }

  /** A captured version: one or more digits and dots. */
  predicate IsVersionString(v: string) {
    |v| > 0 && forall k :: 0 <= k < |v| ==> IsDigitOrDot(v[k])
  }

  /** "version", in any ASCII case, occurs in `s` at index `i`. */
  predicate KeywordAt(s: string, i: nat) {
    i + |Keyword| <= |s| && forall k :: 0 <= k < |Keyword| ==> StringOps.Lower(s[i + k]) == Keyword[k]
  }

  /** A match object: where the whole match starts and where group 1 lies. */
  datatype Match = Match(start: nat, groupStart: nat, groupEnd: nat)

  /** `m` is the match the regular-expression engine reports when the pattern
      matches `s` at `m.start`: the keyword, then separators up to
      `groupStart`, then a non-empty group of digits and dots that the greedy
      `+` extends as far as it can. */
  ghost predicate IsMatch(s: string, m: Match) {
    && KeywordAt(s, m.start)
    && m.start + |Keyword| <= m.groupStart < m.groupEnd <= |s|
    && (forall k :: m.start + |Keyword| <= k < m.groupStart ==> IsSeparator(s[k]))
    && (forall k :: m.groupStart <= k < m.groupEnd ==> IsDigitOrDot(s[k]))
    && (m.groupEnd == |s| || !IsDigitOrDot(s[m.groupEnd]))
  }

  /** The length of the longest run of characters satisfying `p` that starts
      at index `k` of `s`. */
  function RunLength(s: string, k: nat, p: char -> bool): (n: nat)
    requires k <= |s|
    ensures k + n <= |s|
    ensures forall i :: k <= i < k + n ==> p(s[i])
    ensures k + n == |s| || !p(s[k + n])
    decreases |s| - k
  {
    if k < |s| && p(s[k]) then 1 + RunLength(s, k + 1, p) else 0
  }

  /** A maximal run of `p` that starts at `k` ends where `RunLength` says. */
  lemma {:induction false} RunEndsAt(s: string, k: nat, p: char -> bool, e: nat)
    requires k <= e <= |s|
    requires forall i :: k <= i < e ==> p(s[i])
    requires e == |s| || !p(s[e])
    ensures e == k + RunLength(s, k, p)
    decreases e - k
  {
    if k < e {
      RunEndsAt(s, k + 1, p, e);
    }
  }

  /** The two classes of the pattern share no character. */
  lemma DigitIsNoSeparator(c: char)
    requires IsDigitOrDot(c)
    ensures !IsSeparator(c)
  {
  }

  /** A match at `j` is pinned down by the text: its separators and its
      group are the maximal runs that follow the keyword. */
  lemma MatchIsMaximalRuns(s: string, m: Match)
    requires IsMatch(s, m)
    ensures m.groupStart == m.start + |Keyword| + RunLength(s, m.start + |Keyword|, IsSeparator)
    ensures m.groupEnd == m.groupStart + RunLength(s, m.groupStart, IsDigitOrDot)
  {
    DigitIsNoSeparator(s[m.groupStart]);
    RunEndsAt(s, m.start + |Keyword|, IsSeparator, m.groupStart);
    RunEndsAt(s, m.groupStart, IsDigitOrDot, m.groupEnd);
  }

  /** Conversely, the keyword followed by the maximal runs is a match as
      soon as the group is non-empty. */
  lemma MaximalRunsMatch(s: string, j: nat, b: nat, e: nat)
    requires KeywordAt(s, j)
    requires b == j + |Keyword| + RunLength(s, j + |Keyword|, IsSeparator)
    requires e == b + RunLength(s, b, IsDigitOrDot)
    requires b < e
    ensures IsMatch(s, Match(j, b, e))
  {
  }

  /** The pattern anchored at index `j` (what `re.match` would do there). */
  function MatchAt(s: string, j: nat): (r: Option<Match>)
    ensures r.Some? ==> r.value.start == j && IsMatch(s, r.value)
  {
    if !KeywordAt(s, j) then None
    else
      var b := j + |Keyword| + RunLength(s, j + |Keyword|, IsSeparator);
      var e := b + RunLength(s, b, IsDigitOrDot);
      if b < e then
        MaximalRunsMatch(s, j, b, e);
        Some(Match(j, b, e))
      else None
  }

  /** Anchored at the start of any match, the scan finds exactly that
      match. */
  lemma MatchAtFindsEveryMatch(s: string, m: Match)
    requires IsMatch(s, m)
    ensures MatchAt(s, m.start) == Some(m)
  {
    MatchIsMaximalRuns(s, m);
  }

  /** `re.search` from index `i` on: the match with the smallest start
      at or after `i`. */
  function SearchFrom(s: string, i: nat): (r: Option<Match>)
    requires i <= |s|
    ensures r.Some? ==> IsMatch(s, r.value) && i <= r.value.start
    ensures r.Some? ==> forall m :: IsMatch(s, m) && i <= m.start ==> r.value.start <= m.start
    ensures r.None? ==> forall m :: IsMatch(s, m) ==> m.start < i
    decreases |s| - i
  {
    match MatchAt(s, i)
    case Some(m) => Some(m)
    case None =>
      if i == |s| then None
      else
        var r := SearchFrom(s, i + 1);
        assert forall m :: IsMatch(s, m) ==> m.start != i by {
          forall m | IsMatch(s, m) ensures m.start != i {
            MatchAtFindsEveryMatch(s, m);
          }
        }
        r
  }

  /** `version_pattern.search(s)`: the leftmost match, if any. */
  function FindMatch(s: string): (r: Option<Match>)
    ensures r.Some? <==> exists m :: IsMatch(s, m)
    ensures r.Some? ==> IsMatch(s, r.value)
    ensures r.Some? ==> forall m :: IsMatch(s, m) ==> r.value.start <= m.start
  {
    SearchFrom(s, 0)
  }

  /** `version_pattern.search(s).group(1)`, or None when there is no match. */
  function Search(s: string): (r: Option<string>)
    ensures r.Some? <==> exists m :: IsMatch(s, m)
    ensures r.Some? ==> IsVersionString(r.value)
    ensures r.Some? ==> exists m :: IsMatch(s, m) && r.value == s[m.groupStart..m.groupEnd]
                                   && forall m' :: IsMatch(s, m') ==> m.start <= m'.start
  {
    match FindMatch(s)
    case Some(m) => Some(s[m.groupStart..m.groupEnd])
    case None => None
  }

  /** Whichever match starts first is the one `search` reports, and its
      group is the version. */
  lemma LeftmostMatchIsReported(s: string, m: Match)
    requires IsMatch(s, m)
    requires forall m' :: IsMatch(s, m') ==> m.start <= m'.start
    ensures Search(s) == Some(s[m.groupStart..m.groupEnd])
  {
    var r := Search(s);
    var m' :| IsMatch(s, m') && r.value == s[m'.groupStart..m'.groupEnd]
              && forall m'' :: IsMatch(s, m'') ==> m'.start <= m''.start;
    MatchIsDeterministic(s, m, m');
  }

  /** At one start position the pattern matches at most one way, so the
      leftmost match, and with it the captured version, is unique. */
  lemma MatchIsDeterministic(s: string, m1: Match, m2: Match)
    requires IsMatch(s, m1) && IsMatch(s, m2) && m1.start == m2.start
    ensures m1 == m2
  {
    MatchAtFindsEveryMatch(s, m1);
    MatchAtFindsEveryMatch(s, m2);
  }
}

=== FILE: wrappers.dfy ===
/** The optional value the model uses wherever the Python code returns `None`
    or a value. */
module Wrappers {

  datatype Option<+T> = None | Some(value: T)
}
